=== FILE: README.md ===
# vddump in Dafny

A model of `vddump`, a small C tool that reads one 2048-byte ISO 9660 (ECMA-119)
volume descriptor from standard input and prints it in a readable form. For each
field of the descriptor it prints a header line `-- name offset length`, followed
by ` (value)` when the field's encoding can be interpreted. Under the header
comes an xxd-style hex dump of the field's bytes. The root Directory Record
embedded in the descriptor is instead expanded field by field, two columns
further in. Only Primary (type 1) and Supplementary (type 2) descriptors are
dumped. Every other input ends with a message on standard error and exit
status 1.

The modules follow the program's parts:

- `Text` (text.dfy): the pieces of `printf` formatting the program uses. These
  are `%d`/`%u`, `%02d`, `%+03d`, `%02x` and `%*s`. The numeric ones come with
  a reading back, and `%*s` is stated character by character.
- `Seqs` (seqs.dfy): flattening a sequence of line blocks, plus slicing facts
  over generic sequences.
- `Fields` (fields.dfy): the field tables `iso_pvd`, `iso_dir` and the derived
  `iso_svd`, with their sentinel entries and their layout.
- `Decode` (decode.dfy): the `switch` on the field encoding that computes the
  printed value (ECMA-119 sections 7.1.1, 7.2.3, 7.3.1, 7.3.2, 7.3.3 and 9.1.5).
- `HexDump` (hexdump.dfy): `print_hex`, as methods with loops proved equal to a
  line-by-line specification.
- `Walker` (walker.dfy): `dump_field_list`, as a method proved equal to the
  function `Walk`. `Walk` is the concatenation of every entry's lines.
- `Vddump` (vddump.dfy): `vd_types[]` and `main` after option parsing.

The program's output is modelled as a sequence of lines without their newline
characters. Standard input is the byte sequence the single `read` call returns.
The `-c` option is a boolean that selects the palette of escape codes.

## Model

| member | source | states |
|---|---|---|
| Text.Dec | vddump.c:223 | `%d`/`%u` of a non-negative number is a non-empty string of digits with no leading zero |
| Text.DecRoundTrip | vddump.c:223 | the decimal text of an offset, length or value reads back as that number |
| Text.Pad2 | vddump.c:214 | `%02d` gives at least two digits, exactly two below 100, a leading zero only below 10, and reads back as the number |
| Text.SignedPad2 | vddump.c:214 | `%+03d` gives the sign, then the magnitude as digits that read back, with a leading zero only below 10 in magnitude; three characters when the magnitude is below 100 |
| Text.Spaces | vddump.c:156 | `%*s` of an empty string at width `n` is exactly `n` blanks |
| Text.Hex2RoundTrip | vddump.c:160 | `%02x` of a byte gives two hex digits that read back as the byte |
| Fields.PrimaryLayout | vddump.c:81-116 | the primary table has 33 named entries before its sentinel; they tile the 2048-byte sector from offset 0, each at least as long as its encoding reads; the only Directory Record is `root_directory_record` at 156 |
| Fields.DirectoryLayout | vddump.c:121-134 | the Directory Record table has 11 named entries before its sentinel; they tile exactly 34 bytes, wide enough for their encodings, and none is itself a record |
| Fields.DeriveSupplementary | vddump.c:300-303 | the supplementary table is the primary one, except that entry 3 becomes `flags` in 7.1.1 and entry 8 becomes `escape` |
| Fields.DeriveKeepsLayout | vddump.c:300-303 | renaming entries keeps the sentinel in place, the tiling and the widths |
| Fields.SupplementaryLayout | vddump.c:300-303 | the supplementary table is terminated, has the primary's 33 entries tiling the sector, and has `flags` (7, 1, 7.1.1) and `escape` (88, 32) in place of the unused fields |
| Fields.BuildSupplementary | vddump.c:300-303 | the `memcpy` of the primary table into a fresh array, then the three assignments, yields the derived table |
| Fields.SentinelIndex | vddump.c:189 | the walk stops at the first entry with an empty name |
| Fields.Entries | vddump.c:189 | the entries a walk visits are the table's prefix before the first empty name |
| Decode.Join16 | vddump.c:199 | `data[0] \| data[1]<<8` is the two bytes read little-endian |
| Decode.Join32 | vddump.c:204 | `data[0] \| data[1]<<8 \| data[2]<<16 \| data[3]<<24` printed with `%u` is the four bytes read little-endian, below 2^32 |
| Decode.Join32Shift2 | vddump.c:208 | the 7.3.2 expression as written (`data[2]<<2`) equals the big-endian reading exactly when the third byte is 0 |
| Decode.SignedByte | vddump.c:215 | `(char)data[6]` is the byte as a signed value in -128..127 |
| Decode.GmtOffset | vddump.c:215 | the offset divided by 4 truncates toward zero and lies in -32..31 |
| Decode.DecodeField | vddump.c:193-221 | a value is printed exactly for the numeric encodings and for a 9.1.5 date whose year byte is non-zero; it is a number below 2^32 exactly when the encoding is not 9.1.5 |
| Decode.DecodedValues | vddump.c:194-217 | 7.1.1 gives the byte, 7.2.3 the 2-byte and 7.3.1/7.3.3 the 4-byte little-endian value, and 9.1.5 gives the date text |
| Decode.TypeMReading | vddump.c:207-210 | the type M path table fields always print a number; it is the big-endian value exactly when the third byte is 0; bytes 00 00 01 00 print 4, not 256 |
| Decode.DecodeLocal | vddump.c:190-221 | the value depends only on the first bytes of the field that its encoding reads |
| Decode.CalendarDateLayout | vddump.c:213-214 | `%d-%02d-%02d` of a four-digit year, when the month and day are below 100, is ten characters whose numbers read back |
| Decode.TimeOfDayLayout | vddump.c:213-214 | `%02d:%02d:%02d` of numbers below 100 is eight characters whose numbers read back |
| Decode.DateLayout | vddump.c:211-217 | when the month, day and time bytes are below 100, the date text is 26 characters: the date of year byte + 1900, a blank, the time, ` GMT`, and the signed offset in hours |
| Decode.DateExample | vddump.c:211-217 | bytes 124 1 1 0 0 0 4 print as `2024-01-01 00:00:00 GMT+01` |
| HexDump.GutterChar | vddump.c:176 | a byte prints as itself when it is in 32..126 and as `.` otherwise |
| HexDump.PrintPairs | vddump.c:159-161 | the first loop writes one slot of two bytes for each full pair of the chunk |
| HexDump.PrintSlots | vddump.c:159-171 | the hex area is eight five-character slots: pairs, then a lone last byte, then blank slots |
| HexDump.PadSlots | vddump.c:169-171 | the padding loop fills the slots up to eight with blanks |
| HexDump.PrintGutter | vddump.c:175-177 | the gutter has one character per byte of the chunk |
| HexDump.PrintLine | vddump.c:156-179 | one pass of the outer loop writes the indent, the hex area, a blank and the gutter |
| HexDump.PrintHex | vddump.c:152-182 | `print_hex(p, n, indent)` writes the dump of exactly the first `n` bytes, one line per started group of 16 |
| HexDump.LineLength | vddump.c:156-177 | every line is the indent, 40 columns of hex, a blank and one gutter character per byte |
| HexDump.LineShowsByte | vddump.c:159-177 | byte `k` of a line is printed as two hex digits at column indent + 5(k/2) + 2(k mod 2); they read back as the byte, and its gutter character is at indent + 41 + k |
| HexDump.DumpShowsByte | vddump.c:152-182 | every byte of the dumped bytes can be read back from line k/16 of the dump |
| HexDump.HexArea | vddump.c:159-171 | every column of the hex area is a blank when it is a slot's separator or lies past the chunk's bytes, and otherwise the right hex digit of the right byte |
| HexDump.LineBlanks | vddump.c:156-173 | the indent and the column between the hex area and the gutter are blanks |
| HexDump.LastLine | vddump.c:156-179 | at any indent, the line of a single byte is the indent's blanks, its two hex digits, 38 blanks, a blank and its gutter character |
| HexDump.SeventeenBytes | vddump.c:155-181 | at any indent, 17 bytes make a full line of the indent plus 57 characters, then a line of the indent's blanks, the lone last byte, 38 blanks, a blank and its gutter character |
| HexDump.LineFeedShown | vddump.c:155-181 | at any indent, a 17th byte 0x0a is printed as `0a` right after the second line's indent and shows as `.` in the gutter |
| Walker.DumpFieldList | vddump.c:184-238 | the walk of `pf` up to the sentinel writes exactly `Walk` of the table's entries |
| Walker.DumpField | vddump.c:190-237 | one pass of the loop writes the header and then either the expanded record or the hex dump |
| Walker.EntryInPlace | vddump.c:189 | every entry is printed exactly once and in table order: the lines of the entries before it, its own lines, then those of the entries after it |
| Walker.WalkStep | vddump.c:189-238 | one more entry appends its lines to those of the entries before it |
| Walker.WalkConcat | vddump.c:189 | walking two lists one after the other prints the first list's lines, then the second's |
| Walker.HeaderLine | vddump.c:223-231 | the header of entry `k` is the line right after all lines of the entries before it, and shows the value decoded from the field's bytes |
| Walker.SuffixIffValue | vddump.c:223-229 | the header ends in `)` exactly when a value was decoded, whatever the colours |
| Walker.WalkLength | vddump.c:184-238 | the number of lines printed depends on the table alone, not on the bytes, indent or colours |
| Walker.HexField | vddump.c:223-236 | a non-record field prints its header with the value decoded from its own bytes, then the hex dump of exactly its `length` bytes |
| Walker.RecordExpansion | vddump.c:233-234 | a record field prints its header with no value, then the walk of the directory table over its own 34 bytes, two columns further in |
| Walker.FieldLocal | vddump.c:190-237 | a field's lines depend only on the bytes it covers |
| Walker.WalkLocal | vddump.c:184-238 | a walk depends only on the bytes its fields cover |
| Walker.RecordDepthOne | vddump.c:233-236 | inside an expanded record every directory entry prints its header and then the hex dump of its own bytes; none is expanded again |
| Walker.DirectoryFits | vddump.c:121-134 | the directory table fits any record-sized region and has no records of its own, so the recursion stops after one level |
| Vddump.LookupFirst | vddump.c:321-331 | the scan of `vd_types[]` returns the first entry before the sentinel whose code matches; it finds nothing only when every matching entry lies past an empty name; the sentinel is never returned |
| Vddump.FindType | vddump.c:321-331 | the `for` loop over `vd_types[]` stops at the first matching code or at the sentinel, as `Lookup` does |
| Vddump.RegistryShape | vddump.c:143-150 | `vd_types[]` has six entries ending in the sentinel; only types 1 and 2 are supported, with the primary and the supplementary tables |
| Vddump.Scan | vddump.c:321-331 | codes 0, 1, 2, 3 and 255 select their own entry (code 0 the Boot Record, never the sentinel); every other code selects none |
| Vddump.DumpableTables | vddump.c:325 | both tables passed to `dump_field_list` are terminated and fit a full sector |
| Vddump.Run | vddump.c:292-333 | `main` after option parsing produces exactly `Outcome`: a short read, a bad signature, an unsupported type, an invalid code, or the dump |
| Vddump.Rejections | vddump.c:313-333 | a short read is reported with its byte count exactly when fewer than 2048 bytes arrive; a full sector is refused as not a volume descriptor exactly when bytes 1..6 differ from `CD001` 0x01; any dump needs a full, signed sector of type 1 or 2 |
| Vddump.Signed | vddump.c:321-333 | a full, signed sector leads to the entry the scan selects: an invalid code when there is none, an unsupported-type message, or the dump with that entry's table |
| Vddump.PrimaryDump | vddump.c:323-326 | code 1 dumps the sector with the primary table at indent 0 |
| Vddump.SupplementaryDump | vddump.c:323-326 | code 2 dumps the sector with the derived supplementary table |
| Vddump.Refused | vddump.c:321-333 | codes 0, 3 and 255 give "does not support VD of type" with that type's name; every code other than 0, 1, 2, 3 and 255 gives "Invalid VD code" |
| Vddump.MessagesReadBack | vddump.c:313-333 | each error message carries its cause: the byte count and the code read back from the text, and the type name sits between the quotes |

## Left out

- I/O: reading standard input, writing standard output and standard error, and
  the exit itself are not modelled. Input is the byte sequence one `read` returns.
  Output is a sequence of lines, or a `Failure` whose `Message` is the standard
  error line; exit status 1 corresponds to `Failure` and 0 to `Success`.
- A partial `read` of a pipe is treated like end of input. The program does the
  same (it reads once).
- The `read` error path (`IO error: ...` with `strerror`) is left out, because
  it depends on the operating system.
- Option parsing (`getopt`, `-h` and `usage()`, and exit status 1 for an unknown
  option) is left out. `Run` takes the outcome of `-c` as a boolean.
- Only the three entries of `term[]` that the program prints are modelled (blue,
  green, reset). Blanking all entries without `-c` becomes the empty palette.
- Decode.SignedByte: `(char)` is taken to be signed, as on x86; it is unsigned
  on ARM, AArch64, PowerPC, RISC-V and s390 Linux.
  With an unsigned `char` the offset would differ for bytes above 127.
- Decode.Join32: `data[3]<<24` overflows a signed `int` when that byte is 128 or
  more, which C leaves undefined. The model takes the 32-bit pattern that `%u`
  prints on the usual compilers.
- Decode.Join32Shift2: the 7.3.2 reading is kept as the code has it
  (`data[2]<<2`, not `<<8`). `TypeMReading` states when it differs from the
  big-endian value. The rest of the model uses the program's reading, because
  that is what the program prints. Its `data[0]<<24` overflows a signed `int` in the same
  way as in `Join32`, and the model takes the same 32-bit pattern.
- The 128-byte `value.s` buffer of the date: the date text is at most 31
  characters for any seven bytes, so the `snprintf` truncation never applies.
- The Directory Record's name is modelled as the single byte the table gives it.
  Longer file identifiers and system use fields are not dumped by the program
  either.
- The C `union` shared by the number and the date text becomes the `Value`
  datatype.

=== FILE: decode.dfy ===
/** The scalar decoder: turns the bytes at the start of a field into the value
    printed after its header line, according to the field's ECMA-119 encoding. */
module Decode {
  import opened Wrappers
  import opened Text
  import opened Fields

  /** A parsed value: a number printed with `%u`, or a formatted date. */
  datatype Value = Number(n: nat) | Stamp(text: string)

  const TwoTo32: nat := 0x1_0000_0000

  /** The little-endian reading of a byte string: the first byte is the least significant. */
  function LittleEndian(s: seq<byte>): nat {
    if s == [] then 0 else s[0] as nat + 256 * LittleEndian(s[1..])
  }

  /** The big-endian reading of a byte string: the last byte is the least significant. */
  function BigEndian(s: seq<byte>): nat {
    if s == [] then 0 else BigEndian(s[..|s| - 1]) * 256 + s[|s| - 1] as nat
  }

  lemma LittleEndian2(s: seq<byte>)
    requires |s| == 2
    ensures LittleEndian(s) == s[0] as nat + 256 * s[1] as nat
  {
    var t := s[1..];
    assert t[1..] == [];
    assert LittleEndian(t) == t[0] as nat + 256 * LittleEndian(t[1..]);
  }

  lemma LittleEndian4(s: seq<byte>)
    requires |s| == 4
    ensures LittleEndian(s) == s[0] as nat + 256 * s[1] as nat + 65536 * s[2] as nat + 16777216 * s[3] as nat
  {
    var t := s[1..];
    LittleEndian2(t[1..]);
    assert LittleEndian(t) == t[0] as nat + 256 * LittleEndian(t[1..]);
  }

  lemma BigEndian2(s: seq<byte>)
    requires |s| == 2
    ensures BigEndian(s) == s[1] as nat + 256 * s[0] as nat
  {
    var t := s[..1];
    assert t[..0] == [];
    assert BigEndian(t) == BigEndian(t[..0]) * 256 + t[0] as nat;
  }

  lemma BigEndian4(s: seq<byte>)
    requires |s| == 4
    ensures BigEndian(s) == s[3] as nat + 256 * s[2] as nat + 65536 * s[1] as nat + 16777216 * s[0] as nat
  {
    var t := s[..3];
    BigEndian2(t[..2]);
    assert BigEndian(t) == BigEndian(t[..2]) * 256 + t[2] as nat;
  }

  /** `lo | hi<<8` on C `int`s: two bytes joined little-endian. */
  function Join16(lo: byte, hi: byte): (v: nat)
    ensures v == lo as nat + 256 * hi as nat
  {
    ((lo as bv32) | ((hi as bv32) << 8)) as nat
  }

  /** `b0 | b1<<8 | b2<<16 | b3<<24`, printed with `%u`: four bytes joined
      little-endian, modulo 2^32 as the 32-bit `int` holds them. */
  function Join32(b0: byte, b1: byte, b2: byte, b3: byte): (v: nat)
    ensures v == b0 as nat + 256 * b1 as nat + 65536 * b2 as nat + 16777216 * b3 as nat
    ensures v < TwoTo32
  {
    ((b0 as bv32) | ((b1 as bv32) << 8) | ((b2 as bv32) << 16) | ((b3 as bv32) << 24)) as nat
  }

  /** `b3 | b2<<2 | b1<<16 | b0<<24`, printed with `%u`: the program's reading of a
      big-endian number.  With `b2` shifted by 2 rather than 8 it is the big-endian
      value of b0..b3 exactly when `b2` is zero. */
  function Join32Shift2(b0: byte, b1: byte, b2: byte, b3: byte): (v: nat)
    ensures v < TwoTo32
    ensures v == b3 as nat + 256 * b2 as nat + 65536 * b1 as nat + 16777216 * b0 as nat <==> b2 == 0
  {
    ((b3 as bv32) | ((b2 as bv32) << 2) | ((b1 as bv32) << 16) | ((b0 as bv32) << 24)) as nat
  }

  /** `(char)b`, taking `char` to be signed. */
  function SignedByte(b: byte): (s: int)
    ensures -128 <= s < 128
    ensures (s - b as int) % 256 == 0
  {
    if b < 128 then b as int else b as int - 256
  }

  /** The GMT offset in hours: the signed byte divided by 4 as C divides,
      truncating toward zero. */
  function GmtOffset(b: byte): (q: int)
    ensures -32 <= q <= 31
    ensures SignedByte(b) >= 0 ==> 4 * q <= SignedByte(b) < 4 * q + 4
    ensures SignedByte(b) < 0 ==> 4 * q - 4 < SignedByte(b) <= 4 * q
  {
    var s := SignedByte(b);
    if s >= 0 then s / 4 else -((-s) / 4)
  }

  /** 9.1.5 rendered as `%d-%02d-%02d %02d:%02d:%02d GMT%+03d`: the calendar date
      (the year being 1900 plus the first byte), the time of day, and the GMT
      offset in hours. */
  function DateText(data: seq<byte>): string
    requires |data| >= 7
  {
    CalendarDate(data[0] as nat + 1900, data[1] as nat, data[2] as nat) + " "
      + TimeOfDay(data[3] as nat, data[4] as nat, data[5] as nat)
      + " GMT" + SignedPad2(GmtOffset(data[6]))
  }

  /** `%d-%02d-%02d` */
  function CalendarDate(year: nat, month: nat, day: nat): string {
    Dec(year) + "-" + Pad2(month) + "-" + Pad2(day)
  }

  /** `%02d:%02d:%02d` */
  function TimeOfDay(hour: nat, minute: nat, second: nat): string {
    Pad2(hour) + ":" + Pad2(minute) + ":" + Pad2(second)
  }

  /** Where each of five concatenated strings lies in the result. */
  lemma Pieces(a: string, b: string, c: string, d: string, e: string)
    ensures var r := a + b + c + d + e;
      var i, j, k, l := |a|, |a| + |b|, |a| + |b| + |c|, |a| + |b| + |c| + |d|;
      && |r| == l + |e|
      && r[..i] == a && r[i..j] == b && r[j..k] == c && r[k..l] == d && r[l..] == e
  {
  }

  /** The value printed for a field, if any: a number for the integer encodings,
      a date for 9.1.5 unless its year byte is zero, and nothing for opaque fields
      and embedded Directory Records. */
  function DecodeField(data: seq<byte>, format: Format): (v: Option<Value>)
    requires |data| >= Width(format)
    ensures v.Some? <==> (format != Non && format != F910 && (format == F915 ==> data[0] != 0))
    ensures v.Some? ==> (v.value.Number? <==> format != F915)
    ensures v.Some? && v.value.Number? ==> v.value.n < TwoTo32
  {
    match format
    case Non => None
    case F711 => Some(Number(data[0] as nat))
    case F723 => Some(Number(Join16(data[0], data[1])))
    case F731 | F733 => Some(Number(Join32(data[0], data[1], data[2], data[3])))
    case F732 => Some(Number(Join32Shift2(data[0], data[1], data[2], data[3])))
    case F910 => None
    case F915 => if data[0] as int > 0 then Some(Stamp(DateText(data))) else None
  }

  /** A field's value is read from its first `Width(format)` bytes and from
      nothing else. */
  lemma DecodeLocal(d1: seq<byte>, d2: seq<byte>, format: Format)
    requires |d1| >= Width(format) && |d2| >= Width(format)
    requires d1[..Width(format)] == d2[..Width(format)]
    ensures DecodeField(d1, format) == DecodeField(d2, format)
  {
    forall i | 0 <= i < Width(format)
      ensures d1[i] == d2[i]
    {
      assert d1[i] == d1[..Width(format)][i];
    }
  }

  /** What each encoding yields: 7.1.1 the byte; 7.2.3 the little-endian value of
      the first two bytes only; 7.3.1 and 7.3.3 the little-endian value of the
      first four bytes (the big-endian half of 7.3.3 is not read); 9.1.5 the
      date text. */
  lemma DecodedValues(data: seq<byte>, format: Format)
    requires |data| >= Width(format)
    ensures format == F711 ==> DecodeField(data, format) == Some(Number(data[0] as nat))
    ensures format == F723 ==> DecodeField(data, format) == Some(Number(LittleEndian(data[..2])))
    ensures format == F731 || format == F733 ==> DecodeField(data, format) == Some(Number(LittleEndian(data[..4])))
    ensures format == F915 && data[0] != 0 ==> DecodeField(data, format) == Some(Stamp(DateText(data)))
  {
    match format
    case F723 => LittleEndian2(data[..2]);
    case F731 | F733 => LittleEndian4(data[..4]);
    case _ =>
  }

  /** The type M path table fields are read big-endian only when their third byte
      is zero: `[0, 0, 1, 0]` is 256 big-endian, but decodes to 4. */
  lemma TypeMReading(data: seq<byte>)
    requires |data| >= 4
    ensures DecodeField(data, F732).Some? && DecodeField(data, F732).value.Number?
    ensures DecodeField(data, F732).value.n == BigEndian(data[..4]) <==> data[2] == 0
    ensures DecodeField([0, 0, 1, 0], F732) == Some(Number(4)) && BigEndian([0, 0, 1, 0]) == 256
  {
    BigEndian4(data[..4]);
    BigEndian4([0, 0, 1, 0]);
  }

  /** `YYYY-MM-DD`: ten characters for a four-digit year and month and day below
      100, and each number reads back as what was printed. */
  lemma CalendarDateLayout(year: nat, month: nat, day: nat)
    requires 1000 <= year < 10000 && month < 100 && day < 100
    ensures var r := CalendarDate(year, month, day);
      && |r| == 10 && r[4] == '-' && r[7] == '-'
      && ParseDec(r[..4]) == year && ParseDec(r[5..7]) == month && ParseDec(r[8..]) == day
  {
    DecFourDigits(year);
    DecRoundTrip(year);
    Pieces(Dec(year), "-", Pad2(month), "-", Pad2(day));
  }

  /** `HH:MM:SS`: eight characters when the numbers are below 100, and each reads
      back as what was printed. */
  lemma TimeOfDayLayout(hour: nat, minute: nat, second: nat)
    requires hour < 100 && minute < 100 && second < 100
    ensures var r := TimeOfDay(hour, minute, second);
      && |r| == 8 && r[2] == ':' && r[5] == ':'
      && ParseDec(r[..2]) == hour && ParseDec(r[3..5]) == minute && ParseDec(r[6..]) == second
  {
    Pieces(Pad2(hour), ":", Pad2(minute), ":", Pad2(second));
  }

  /** The whole date text, `YYYY-MM-DD HH:MM:SS GMT+OO`: 26 characters when month,
      day and time bytes are below 100, ending in the signed offset in hours. */
  lemma DateLayout(data: seq<byte>)
    requires |data| >= 7
    requires forall i :: 1 <= i < 6 ==> data[i] < 100
    ensures var r := DateText(data);
      && |r| == 26
      && r[..10] == CalendarDate(data[0] as nat + 1900, data[1] as nat, data[2] as nat)
      && r[10] == ' '
      && r[11..19] == TimeOfDay(data[3] as nat, data[4] as nat, data[5] as nat)
      && r[19..23] == " GMT"
      && r[23] == (if GmtOffset(data[6]) < 0 then '-' else '+')
      && ParseDec(r[24..]) == (if GmtOffset(data[6]) < 0 then -GmtOffset(data[6]) else GmtOffset(data[6]))
  {
    var year, month, day := data[0] as nat + 1900, data[1] as nat, data[2] as nat;
    var hour, minute, second := data[3] as nat, data[4] as nat, data[5] as nat;
    assert month < 100 && day < 100 && hour < 100 && minute < 100 && second < 100;
    CalendarDateLayout(year, month, day);
    TimeOfDayLayout(hour, minute, second);
    var offset := SignedPad2(GmtOffset(data[6]));
    assert |offset| == 3;
    Pieces(CalendarDate(year, month, day), " ", TimeOfDay(hour, minute, second), " GMT", offset);
    assert DateText(data)[24..] == offset[1..];
  }

  /** The worked example: 2024-01-01 midnight, one hour east of Greenwich. */
  lemma ExampleCalendarDate()
    ensures CalendarDate(2024, 1, 1) == "2024-01-01"
  {
    assert Dec(2) == "2" && Dec(20) == "20" && Dec(202) == "202" && Dec(2024) == "2024";
    assert Dec(1) == "1" && Pad2(1) == "01";
  }

  lemma ExampleTimeOfDay()
    ensures TimeOfDay(0, 0, 0) == "00:00:00"
  {
    assert Dec(0) == "0" && Pad2(0) == "00";
  }

  lemma ExampleOffset()
    ensures SignedPad2(GmtOffset(4)) == "+01"
  {
    assert GmtOffset(4) == 1;
    assert Dec(1) == "1" && Pad2(1) == "01";
  }

  lemma StampText()
    ensures "2024-01-01" + " " + "00:00:00" + " GMT" + "+01" == "2024-01-01 00:00:00 GMT+01"
  {
    assert "2024-01-01" + " " == "2024-01-01 ";
    assert "00:00:00" + " GMT" + "+01" == "00:00:00 GMT+01";
  }

  lemma DateExample()
    ensures DecodeField([124, 1, 1, 0, 0, 0, 4], F915) == Some(Stamp("2024-01-01 00:00:00 GMT+01"))
  {
    var data: seq<byte> := [124, 1, 1, 0, 0, 0, 4];
    ExampleCalendarDate();
    ExampleTimeOfDay();
    ExampleOffset();
    assert data[0] as nat + 1900 == 2024 && data[1] as nat == 1 && data[2] as nat == 1;
    assert data[3] as nat == 0 && data[4] as nat == 0 && data[5] as nat == 0;
    assert DateText(data) == "2024-01-01" + " " + "00:00:00" + " GMT" + "+01";
    StampText();
    assert data[0] as int > 0;
  }
}

=== FILE: fields.dfy ===
/** The field-description tables: for each field of a Primary Volume Descriptor
    (ECMA-119 section 8.4), of a Directory Record (section 9.1) and of the
    Supplementary Volume Descriptor derived from the primary one (section 8.5),
    its name, byte offset, byte length and encoding.  Tables end with a sentinel
    entry whose name is empty, as in the C arrays. */
module Fields {

  type byte = bv8

  /** The encodings, named after the ECMA-119 clause that defines them. */
  datatype Format =
    | Non   // opaque bytes: hex dump only
    | F711  // 7.1.1: 8-bit unsigned
    | F723  // 7.2.3: 16-bit both-byte-order
    | F731  // 7.3.1: 32-bit little-endian
    | F732  // 7.3.2: 32-bit big-endian
    | F733  // 7.3.3: 32-bit both-byte-order
    | F910  // 9.1: an embedded Directory Record, expanded recursively
    | F915  // 9.1.5: 7-byte recording date and time

  datatype Field = Field(name: string, offset: nat, length: nat, format: Format)

  const Sentinel: Field := Field("", 0, 0, Non)

  const SectorSize: nat := 2048

  /** Size of the Directory Record as the table below lays it out (a one-byte name). */
  const RecordSize: nat := 34

  /** How many bytes, from the start of a field, interpreting it reads. */
  function Width(f: Format): nat {
    match f
    case Non => 0
    case F711 => 1
    case F723 => 2
    case F731 | F732 | F733 => 4
    case F910 => RecordSize
    case F915 => 7
  }

  /** The entries of the Primary Volume Descriptor table, before its sentinel. */
  const PrimaryFields: seq<Field> := [
    Field("code",                    0,     1,    F711),
    Field("id",                      1,     5,    Non),
    Field("version",                 6,     1,    F711),
    Field("unused1",                 7,     1,    Non),
    Field("system_id",               8,     32,   Non),
    Field("volume_id",               40,    32,   Non),
    Field("unused2",                 72,    8,    Non),
    Field("volume_space_size",       80,    8,    F733),
    Field("unused3",                 88,    32,   Non),
    Field("volume_set_size",         120,   4,    F723),
    Field("volume_sequence_number",  124,   4,    F723),
    Field("logical_block_size",      128,   4,    F723),
    Field("path_table_size",         132,   8,    F733),
    Field("type_l_path_table",       140,   4,    F731),
    Field("opt_type_l_path_table",   144,   4,    F731),
    Field("type_m_path_table",       148,   4,    F732),
    Field("opt_type_m_path_table",   152,   4,    F732),
    Field("root_directory_record",   156,   34,   F910),
    Field("volume_set_id",           190,   128,  Non),
    Field("publisher_id",            318,   128,  Non),
    Field("preparer_id",             446,   128,  Non),
    Field("application_id",          574,   128,  Non),
    Field("copyright_file_id",       702,   37,   Non),
    Field("abstract_file_id",        739,   37,   Non),
    Field("bibliographic_file_id",   776,   37,   Non),
    Field("creation_date",           813,   17,   Non),
    Field("modification_date",       830,   17,   Non),
    Field("expiration_date",         847,   17,   Non),
    Field("effective_date",          864,   17,   Non),
    Field("file_structure_version",  881,   1,    F711),
    Field("unused4",                 882,   1,    Non),
    Field("application_data",        883,   512,  Non),
    Field("unused5",                 1395,  653,  Non)
  ]

  const PrimaryTable: seq<Field> := PrimaryFields + [Sentinel]

  /** The entries of the Directory Record table, before its sentinel. */
  const DirectoryFields: seq<Field> := [
    Field("length",                  0,   1,  F711),
    Field("ext_attr_length",         1,   1,  F711),
    Field("extent",                  2,   8,  F733),
    Field("size",                    10,  8,  F733),
    Field("date",                    18,  7,  F915),
    Field("flags",                   25,  1,  F711),
    Field("file_unit_size",          26,  1,  F711),
    Field("interleave",              27,  1,  F711),
    Field("volume_sequence_number",  28,  4,  F723),
    Field("name_len",                32,  1,  F711),
    Field("name",                    33,  1,  Non)
  ]

  const DirectoryTable: seq<Field> := DirectoryFields + [Sentinel]

  /** A table that a walk over it stops in: some entry has an empty name. */
  predicate Terminated(table: seq<Field>) {
    exists k :: 0 <= k < |table| && table[k].name == ""
  }

  /** Index of the first entry with an empty name. */
  function SentinelIndex(table: seq<Field>): (k: nat)
    requires Terminated(table)
    ensures k < |table| && table[k].name == ""
    ensures forall j :: 0 <= j < k ==> table[j].name != ""
  {
    if table[0].name == "" then 0
    else
      var k :| 0 <= k < |table| && table[k].name == "";
      assert table[1..][k - 1].name == "";
      1 + SentinelIndex(table[1..])
  }

  /** The entries a walk visits: those before the sentinel. */
  function Entries(table: seq<Field>): (fields: seq<Field>)
    requires Terminated(table)
    ensures fields <= table
    ensures forall k :: 0 <= k < |fields| ==> fields[k].name != ""
    ensures |fields| < |table| && table[|fields|].name == ""
  {
    table[..SentinelIndex(table)]
  }

  /** The fields lie end to end in table order: the first at `start`, each next one
      where the previous one ends, the last ending at `end`. */
  predicate Tiles(fields: seq<Field>, start: nat, end: nat) {
    if fields == [] then start == end
    else
      && fields[0].offset == start
      && fields[|fields| - 1].offset + fields[|fields| - 1].length == end
      && forall k :: 0 < k < |fields| ==> fields[k].offset == fields[k - 1].offset + fields[k - 1].length
  }

  /** Every field lies inside a region of `size` bytes. */
  predicate InBounds(fields: seq<Field>, size: nat) {
    forall k :: 0 <= k < |fields| ==> fields[k].offset + fields[k].length <= size
  }

  /** Every field is at least as long as what interpreting its encoding reads. */
  predicate WideEnough(fields: seq<Field>) {
    forall k :: 0 <= k < |fields| ==> Width(fields[k].format) <= fields[k].length
  }

  /** Whether some field is an embedded Directory Record. */
  predicate HasRecord(fields: seq<Field>) {
    exists k :: 0 <= k < |fields| && fields[k].format == F910
  }

  lemma {:induction false} TilesLowerBound(fields: seq<Field>, start: nat, end: nat, k: nat)
    requires Tiles(fields, start, end) && k < |fields|
    ensures start <= fields[k].offset
  {
    if k > 0 {
      TilesLowerBound(fields, start, end, k - 1);
    }
  }

  lemma {:induction false} TilesUpperBound(fields: seq<Field>, start: nat, end: nat, k: nat)
    requires Tiles(fields, start, end) && k < |fields|
    ensures fields[k].offset + fields[k].length <= end
    decreases |fields| - k
  {
    if k + 1 < |fields| {
      TilesUpperBound(fields, start, end, k + 1);
    }
  }

  /** Fields that tile a region lie inside it. */
  lemma TilesInBounds(fields: seq<Field>, start: nat, end: nat)
    requires Tiles(fields, start, end)
    ensures forall k :: 0 <= k < |fields| ==> start <= fields[k].offset && fields[k].offset + fields[k].length <= end
    ensures InBounds(fields, end)
  {
    forall k | 0 <= k < |fields|
      ensures start <= fields[k].offset && fields[k].offset + fields[k].length <= end
    {
      TilesLowerBound(fields, start, end, k);
      TilesUpperBound(fields, start, end, k);
    }
  }

  /** A list of named fields followed by the sentinel is a table whose entries are that list. */
  lemma EntriesBeforeSentinel(fields: seq<Field>)
    requires forall k :: 0 <= k < |fields| ==> fields[k].name != ""
    ensures Terminated(fields + [Sentinel]) && Entries(fields + [Sentinel]) == fields
  {
    var table := fields + [Sentinel];
    assert table[|fields|].name == "";
    assert forall j :: 0 <= j < |fields| ==> table[j] == fields[j];
  }

  lemma PrimaryNamed()
    ensures |PrimaryFields| == 33
    ensures forall k :: 0 <= k < |PrimaryFields| ==> PrimaryFields[k].name != ""
  {
  }

  lemma PrimaryTiles()
    ensures Tiles(PrimaryFields, 0, SectorSize)
  {
  }

  lemma PrimaryWide()
    ensures WideEnough(PrimaryFields)
  {
  }

  lemma PrimaryOneRecord()
    ensures PrimaryFields[17] == Field("root_directory_record", 156, RecordSize, F910)
    ensures forall k :: 0 <= k < |PrimaryFields| && PrimaryFields[k].format == F910 ==> k == 17
  {
  }

  /** The primary table: 33 named fields tiling the 2048-byte sector from offset 0,
      each wide enough for its encoding; the only embedded Directory Record is
      `root_directory_record`, exactly as long as the Directory Record table. */
  lemma PrimaryLayout()
    ensures Terminated(PrimaryTable) && Entries(PrimaryTable) == PrimaryFields
    ensures |PrimaryFields| == 33
    ensures Tiles(PrimaryFields, 0, SectorSize) && InBounds(PrimaryFields, SectorSize)
    ensures WideEnough(PrimaryFields)
    ensures PrimaryFields[17] == Field("root_directory_record", 156, RecordSize, F910)
    ensures forall k :: 0 <= k < |PrimaryFields| && PrimaryFields[k].format == F910 ==> k == 17
  {
    PrimaryNamed();
    EntriesBeforeSentinel(PrimaryFields);
    PrimaryTiles();
    TilesInBounds(PrimaryFields, 0, SectorSize);
    PrimaryWide();
    PrimaryOneRecord();
  }

  lemma DirectoryNamed()
    ensures |DirectoryFields| == 11
    ensures forall k :: 0 <= k < |DirectoryFields| ==> DirectoryFields[k].name != ""
    ensures forall k :: 0 <= k < |DirectoryFields| ==> DirectoryFields[k].format != F910
  {
  }

  lemma DirectoryTiles()
    ensures Tiles(DirectoryFields, 0, RecordSize)
  {
  }

  lemma DirectoryWide()
    ensures WideEnough(DirectoryFields)
  {
  }

  /** The Directory Record table: 11 named fields tiling exactly `RecordSize` bytes,
      none of them itself a Directory Record, so the walk nests at most once. */
  lemma DirectoryLayout()
    ensures Terminated(DirectoryTable) && Entries(DirectoryTable) == DirectoryFields
    ensures |DirectoryFields| == 11
    ensures Tiles(DirectoryFields, 0, RecordSize) && InBounds(DirectoryFields, RecordSize)
    ensures WideEnough(DirectoryFields)
    ensures !HasRecord(DirectoryFields)
  {
    DirectoryNamed();
    EntriesBeforeSentinel(DirectoryFields);
    DirectoryTiles();
    DirectoryWide();
    TilesInBounds(DirectoryFields, 0, RecordSize);
  }

  /** The supplementary layout: the primary one with index 3 renamed "flags" and
      read as an 8-bit number, and index 8 renamed "escape". */
  function DeriveSupplementary(primary: seq<Field>): (supplementary: seq<Field>)
    requires |primary| > 8
    ensures |supplementary| == |primary|
    ensures forall k :: 0 <= k < |primary| && k != 3 && k != 8 ==> supplementary[k] == primary[k]
    ensures supplementary[3] == primary[3].(name := "flags", format := F711)
    ensures supplementary[8] == primary[8].(name := "escape")
  {
    primary[3 := primary[3].(name := "flags", format := F711)][8 := primary[8].(name := "escape")]
  }

  const SupplementaryTable: seq<Field> := DeriveSupplementary(PrimaryTable)

  /** Tiling depends only on offsets and lengths. */
  lemma TilesSameLayout(a: seq<Field>, b: seq<Field>, start: nat, end: nat)
    requires |a| == |b|
    requires forall k :: 0 <= k < |a| ==> a[k].offset == b[k].offset && a[k].length == b[k].length
    ensures Tiles(a, start, end) == Tiles(b, start, end)
  {
  }

  /** Deriving keeps what a walk relies on: the sentinel stays where it was, and
      the entries keep their offsets and lengths, so they tile the same region and
      stay wide enough (the new format of index 3 reads one byte). */
  lemma DeriveKeepsLayout(fields: seq<Field>, start: nat, end: nat)
    requires |fields| > 8
    requires forall k :: 0 <= k < |fields| ==> fields[k].name != ""
    requires Tiles(fields, start, end) && WideEnough(fields) && fields[3].length >= 1
    ensures DeriveSupplementary(fields + [Sentinel]) == DeriveSupplementary(fields) + [Sentinel]
    ensures Terminated(DeriveSupplementary(fields + [Sentinel]))
    ensures Entries(DeriveSupplementary(fields + [Sentinel])) == DeriveSupplementary(fields)
    ensures Tiles(DeriveSupplementary(fields), start, end) && WideEnough(DeriveSupplementary(fields))
  {
    var derived := DeriveSupplementary(fields);
    assert forall k :: 0 <= k < |derived| ==> derived[k].name != "";
    EntriesBeforeSentinel(derived);
    TilesSameLayout(fields, derived, start, end);
  }

  /** The supplementary table has the primary table's layout: the same number of
      entries at the same offsets with the same lengths, so it too tiles the sector;
      only `flags` (offset 7, read as an 8-bit number) and `escape` (offset 88)
      differ from the primary entries. */
  lemma SupplementaryLayout()
    ensures Terminated(SupplementaryTable)
    ensures Entries(SupplementaryTable) == DeriveSupplementary(PrimaryFields)
    ensures |Entries(SupplementaryTable)| == |PrimaryFields|
    ensures Tiles(Entries(SupplementaryTable), 0, SectorSize) && InBounds(Entries(SupplementaryTable), SectorSize)
    ensures WideEnough(Entries(SupplementaryTable))
    ensures Entries(SupplementaryTable)[3] == Field("flags", 7, 1, F711)
    ensures Entries(SupplementaryTable)[8] == Field("escape", 88, 32, Non)
  {
    PrimaryLayout();
    PrimaryNamed();
    assert PrimaryFields[3] == Field("unused1", 7, 1, Non);
    assert PrimaryFields[8] == Field("unused3", 88, 32, Non);
    DeriveKeepsLayout(PrimaryFields, 0, SectorSize);
    TilesInBounds(DeriveSupplementary(PrimaryFields), 0, SectorSize);
  }

  /** Builds the supplementary table the way the program does: copy the primary
      table into a new array, then patch two entries in place. */
  method BuildSupplementary(primary: seq<Field>) returns (supplementary: array<Field>)
    requires |primary| > 8
    ensures fresh(supplementary)
    ensures supplementary[..] == DeriveSupplementary(primary)
  {
    supplementary := new Field[|primary|](k requires 0 <= k < |primary| => primary[k]);
    supplementary[3] := supplementary[3].(name := "flags");
    supplementary[3] := supplementary[3].(format := F711);
    supplementary[8] := supplementary[8].(name := "escape");
  }
}

=== FILE: hexdump.dfy ===
/** The xxd-style dump `print_hex` writes under every field: sixteen bytes per
    line, the bytes in hex grouped in pairs, then a gutter showing each byte as
    a character (a dot for anything outside printable ASCII). */
module HexDump {
  import opened Text
  import opened Seqs
  import opened Fields

  /** Bytes per line of the dump. */
  const LineBytes := 16

  /** The width of the hex area: eight five-character slots. */
  const HexWidth := 40

  /** `%c` of the byte when it is printable ASCII (32..126), a dot otherwise. */
  function GutterChar(b: byte): (c: char)
    ensures 32 <= c as int <= 126
    ensures c == '.' || c as int == b as int
    ensures 32 <= b as int <= 126 ==> c as int == b as int
  {
    if 32 <= b as int <= 126 then b as int as char else '.'
  }

  /** Slot `j` (0..7) of the hex area for a chunk of at most sixteen bytes: a
      pair `%02x%02x `, a lone last byte `%02x   `, or five blanks. */
  function Slot(chunk: seq<byte>, j: nat): (r: string)
    ensures |r| == 5
  {
    if 2 * j + 1 < |chunk| then Hex2(chunk[2 * j]) + Hex2(chunk[2 * j + 1]) + " "
    else if 2 * j < |chunk| then Hex2(chunk[2 * j]) + "   "
    else "     "
  }

  /** The first `j` slots, left to right. */
  function SlotList(chunk: seq<byte>, j: nat): (slots: seq<string>)
    ensures |slots| == j && forall t :: 0 <= t < j ==> slots[t] == Slot(chunk, t)
  {
    seq(j, t requires 0 <= t < j => Slot(chunk, t))
  }

  /** The gutter: one character per byte of the chunk. */
  function Gutter(chunk: seq<byte>): (r: string)
    ensures |r| == |chunk|
  {
    seq(|chunk|, k requires 0 <= k < |chunk| => GutterChar(chunk[k]))
  }

  /** One line of the dump, without its newline. */
  function HexLine(chunk: seq<byte>, indent: nat): string
  {
    Spaces(indent) + Flatten(SlotList(chunk, 8)) + " " + Gutter(chunk)
  }

  /** The column of the first hex digit of byte `j` of a line: five columns per
      pair, two per byte within it. */
  function Column(indent: nat, j: nat): nat {
    indent + 5 * (j / 2) + 2 * (j % 2)
  }

  /** The number of bytes on the next line: sixteen, or what is left. */
  function ChunkSize(n: nat): (m: nat)
    ensures m <= n && m <= LineBytes
    ensures n > 0 ==> m > 0
  {
    if n >= LineBytes then LineBytes else n
  }

  /** The number of lines for `n` bytes: one per started group of sixteen. */
  function LineCount(n: nat): nat
  {
    (n + LineBytes - 1) / LineBytes
  }

  /** The bytes shown on line `r`: from `16r`, sixteen of them or what is left. */
  function Chunk(p: seq<byte>, r: nat): (chunk: seq<byte>)
    requires r < LineCount(|p|)
    ensures 0 < |chunk| <= LineBytes
    ensures |chunk| == LineBytes || r == LineCount(|p|) - 1
  {
    var lo := LineBytes * r;
    p[lo..lo + ChunkSize(|p| - lo)]
  }

  /** The whole dump of `p`, one line per chunk. */
  function HexLines(p: seq<byte>, indent: nat): seq<string>
  {
    seq(LineCount(|p|), r requires 0 <= r < LineCount(|p|) => HexLine(Chunk(p, r), indent))
  }

  /** The hex area for the `m` bytes at `i`: `m / 2` pairs, a lone byte when
      `m` is odd, and blank slots up to eight. */
  method PrintSlots(p: seq<byte>, i: nat, m: nat) returns (hex: string)
    requires 0 < m <= LineBytes && i + m <= |p|
    ensures hex == Flatten(SlotList(p[i..i + m], 8))
  {
    ghost var chunk := p[i..i + m];
    hex := PrintPairs(p, i, m);
    var j := m / 2;
    if m % 2 == 1 {
      SlotListStep(chunk, j);
      LoneSlot(p, i, m, j);
      hex := hex + (Hex2(p[i + 2 * j]) + "   ");
      j := j + 1;
    }
    hex := PadSlots(chunk, hex, j);
  }

  /** The first loop of the hex area: one slot per pair of bytes. */
  method PrintPairs(p: seq<byte>, i: nat, m: nat) returns (hex: string)
    requires m <= LineBytes && i + m <= |p|
    ensures hex == Flatten(SlotList(p[i..i + m], m / 2))
  {
    ghost var chunk := p[i..i + m];
    hex := "";
    var j := 0;
    while j < m / 2
      invariant j <= m / 2
      invariant hex == Flatten(SlotList(chunk, j))
    {
      SlotListStep(chunk, j);
      PairSlot(p, i, m, j);
      hex := hex + (Hex2(p[i + 2 * j]) + Hex2(p[i + 2 * j + 1]) + " ");
      j := j + 1;
    }
  }

  /** The last loop of the hex area: blank slots from `j` up to eight. */
  method PadSlots(ghost chunk: seq<byte>, hex: string, j: nat) returns (padded: string)
    requires (|chunk| + 1) / 2 <= j <= 8 && hex == Flatten(SlotList(chunk, j))
    ensures padded == Flatten(SlotList(chunk, 8))
  {
    padded := hex;
    var t := j;
    while t < 8
      invariant j <= t <= 8
      invariant padded == Flatten(SlotList(chunk, t))
    {
      SlotListStep(chunk, t);
      BlankSlot(chunk, t);
      padded := padded + "     ";
      t := t + 1;
    }
    assert t == 8;
  }

  /** A slot past the chunk's bytes is blank. */
  lemma BlankSlot(chunk: seq<byte>, j: nat)
    requires |chunk| <= 2 * j
    ensures Slot(chunk, j) == "     "
  {
  }

  /** Slot `j` of a chunk holding bytes `2j` and `2j + 1` shows both. */
  lemma PairSlot(p: seq<byte>, i: nat, m: nat, j: nat)
    requires i + m <= |p| && 2 * j + 1 < m
    ensures Slot(p[i..i + m], j) == Hex2(p[i + 2 * j]) + Hex2(p[i + 2 * j + 1]) + " "
  {
    var chunk := p[i..i + m];
    assert chunk[2 * j] == p[i + 2 * j] && chunk[2 * j + 1] == p[i + 2 * j + 1];
  }

  /** The slot of an odd chunk's last byte shows it and three blanks. */
  lemma LoneSlot(p: seq<byte>, i: nat, m: nat, j: nat)
    requires i + m <= |p| && 2 * j + 1 == m
    ensures Slot(p[i..i + m], j) == Hex2(p[i + 2 * j]) + "   "
  {
    var chunk := p[i..i + m];
    assert chunk[2 * j] == p[i + 2 * j];
  }

  /** The gutter for the `m` bytes at `i`. */
  method PrintGutter(p: seq<byte>, i: nat, m: nat) returns (gutter: string)
    requires i + m <= |p|
    ensures gutter == Gutter(p[i..i + m])
  {
    ghost var chunk := p[i..i + m];
    gutter := "";
    var j := 0;
    while j < m
      invariant j <= m
      invariant gutter == Gutter(chunk[..j])
    {
      GutterStep(chunk, j);
      gutter := gutter + [GutterChar(p[i + j])];
      j := j + 1;
    }
    assert chunk[..m] == chunk;
  }

  /** One pass of the outer loop of `print_hex`: indent, hex area, a blank,
      gutter. */
  method PrintLine(p: seq<byte>, i: nat, m: nat, indent: nat) returns (line: string)
    requires 0 < m <= LineBytes && i + m <= |p|
    ensures line == HexLine(p[i..i + m], indent)
  {
    var hex := PrintSlots(p, i, m);
    var gutter := PrintGutter(p, i, m);
    line := Spaces(indent) + hex + " " + gutter;
  }

  /** `print_hex(p, n, indent)`: lines of sixteen bytes until `n` is used up. */
  method PrintHex(p: seq<byte>, n: nat, indent: nat) returns (out: seq<string>)
    requires n <= |p|
    ensures out == HexLines(p[..n], indent)
  {
    ghost var q := p[..n];
    out := [];
    var i: nat := 0;
    var left: int := n;
    while left > 0
      invariant left == n - i && i < n + LineBytes
      invariant i == LineBytes * |out|
      invariant forall r :: 0 <= r < |out| ==> r < LineCount(n) && out[r] == HexLine(Chunk(q, r), indent)
      decreases left
    {
      var m := if left >= 16 then 16 else left;
      assert |out| < LineCount(n);
      assert Chunk(q, |out|) == p[i..i + m];
      var line := PrintLine(p, i, m, indent);
      out := out + [line];
      i := i + 16;
      left := left - 16;
    }
    assert |out| == LineCount(n);
  }

  /** Adding a slot to the list adds its text at the end. */
  lemma SlotListStep(chunk: seq<byte>, j: nat)
    ensures Flatten(SlotList(chunk, j + 1)) == Flatten(SlotList(chunk, j)) + Slot(chunk, j)
  {
    assert SlotList(chunk, j + 1)[..j] == SlotList(chunk, j);
  }

  /** One more byte of the chunk adds its character to the gutter. */
  lemma GutterStep(chunk: seq<byte>, j: nat)
    requires j < |chunk|
    ensures Gutter(chunk[..j + 1]) == Gutter(chunk[..j]) + [GutterChar(chunk[j])]
  {
  }

  lemma {:induction false} FlattenLength(pieces: seq<string>)
    requires forall t :: 0 <= t < |pieces| ==> |pieces[t]| == 5
    ensures |Flatten(pieces)| == 5 * |pieces|
  {
    if pieces != [] {
      FlattenLength(pieces[..|pieces| - 1]);
    }
  }

  /** Character `c` of piece `t` is character `5t + c` of the joined text. */
  lemma {:induction false} FlattenAt(pieces: seq<string>, t: nat, c: nat)
    requires forall t :: 0 <= t < |pieces| ==> |pieces[t]| == 5
    requires t < |pieces| && c < 5
    ensures |Flatten(pieces)| == 5 * |pieces|
    ensures Flatten(pieces)[5 * t + c] == pieces[t][c]
  {
    FlattenLength(pieces);
    var k := |pieces| - 1;
    var front := pieces[..k];
    FlattenLength(front);
    assert Flatten(pieces) == Flatten(front) + pieces[k];
    if t < k {
      FlattenAt(front, t, c);
    }
  }

  /** Every line is the indent, forty characters of hex, a blank and one gutter
      character per byte. */
  lemma LineLength(chunk: seq<byte>, indent: nat)
    ensures |HexLine(chunk, indent)| == indent + HexWidth + 1 + |chunk|
  {
    FlattenLength(SlotList(chunk, 8));
  }

  /** Byte `k` of a chunk is the `k % 2`-th hex pair of slot `k / 2`. */
  lemma SlotShowsByte(chunk: seq<byte>, k: nat, c: nat)
    requires k < |chunk| && c < 2
    ensures Slot(chunk, k / 2)[2 * (k % 2) + c] == Hex2(chunk[k])[c]
  {
  }

  /** Column `indent + c` of a line, for `c` below forty, is column `c` of the
      hex area. */
  lemma HexColumn(chunk: seq<byte>, indent: nat, c: nat)
    requires c < HexWidth
    ensures |HexLine(chunk, indent)| == indent + HexWidth + 1 + |chunk|
    ensures HexLine(chunk, indent)[indent + c] == Flatten(SlotList(chunk, 8))[c]
  {
    LineLength(chunk, indent);
  }

  /** Every hex-area column: column `c % 5` of slot `c / 5` is a blank when it is
      the slot's separator or lies past the chunk's bytes, and otherwise digit
      `c % 2` of byte `2 * (c / 5) + (c % 5) / 2`. */
  lemma HexArea(chunk: seq<byte>, indent: nat, c: nat)
    requires c < HexWidth
    ensures var line := HexLine(chunk, indent);
      var k := 2 * (c / 5) + (c % 5) / 2;
      && |line| == indent + HexWidth + 1 + |chunk|
      && (c % 5 == 4 || k >= |chunk| ==> line[indent + c] == ' ')
      && (c % 5 < 4 && k < |chunk| ==> line[indent + c] == Hex2(chunk[k])[c % 5 % 2])
  {
    var t, q := c / 5, c % 5;
    assert 5 * t + q == c;
    HexColumn(chunk, indent, c);
    FlattenAt(SlotList(chunk, 8), t, q);
    SlotChar(chunk, t, q);
  }

  /** Character `q` of slot `t`: the separator and the places past the chunk's
      bytes are blanks, the others digit `q % 2` of byte `2t + q / 2`. */
  lemma SlotChar(chunk: seq<byte>, t: nat, q: nat)
    requires q < 5
    ensures var k := 2 * t + q / 2;
      && (q == 4 || k >= |chunk| ==> Slot(chunk, t)[q] == ' ')
      && (q < 4 && k < |chunk| ==> Slot(chunk, t)[q] == Hex2(chunk[k])[q % 2])
  {
    if 2 * t + 1 < |chunk| {
      var first, second := Hex2(chunk[2 * t]), Hex2(chunk[2 * t + 1]);
      assert Slot(chunk, t) == first + second + " ";
      assert q < 2 ==> Slot(chunk, t)[q] == first[q];
      assert 2 <= q < 4 ==> Slot(chunk, t)[q] == second[q - 2];
    } else if 2 * t < |chunk| {
      var first := Hex2(chunk[2 * t]);
      assert Slot(chunk, t) == first + "   ";
      assert q < 2 ==> Slot(chunk, t)[q] == first[q];
    } else {
      assert Slot(chunk, t) == "     ";
    }
  }

  /** The columns around the hex area are blanks: the indent, and the column
      between the hex area and the gutter. */
  lemma LineBlanks(chunk: seq<byte>, indent: nat)
    ensures var line := HexLine(chunk, indent);
      && |line| == indent + HexWidth + 1 + |chunk|
      && (forall i :: 0 <= i < indent ==> line[i] == ' ')
      && line[indent + HexWidth] == ' '
  {
    LineLength(chunk, indent);
    var hex := Flatten(SlotList(chunk, 8));
    assert HexLine(chunk, indent) == Spaces(indent) + (hex + " " + Gutter(chunk));
  }

  /** Column `indent + 41 + k` of a line is the gutter character of byte `k`. */
  lemma GutterColumn(chunk: seq<byte>, indent: nat, k: nat)
    requires k < |chunk|
    ensures |HexLine(chunk, indent)| == indent + HexWidth + 1 + |chunk|
    ensures HexLine(chunk, indent)[indent + HexWidth + 1 + k] == GutterChar(chunk[k])
  {
    LineLength(chunk, indent);
    var a := Spaces(indent) + Flatten(SlotList(chunk, 8)) + " ";
    assert |a| == indent + HexWidth + 1;
    assert HexLine(chunk, indent)[|a| + k] == Gutter(chunk)[k];
  }

  /** Byte `k` of a line's chunk is printed as two hex digits that read back as
      the byte, at column `indent + 5 * (k / 2) + 2 * (k % 2)`, and as its gutter
      character at column `indent + 41 + k`. */
  lemma LineShowsByte(chunk: seq<byte>, indent: nat, k: nat)
    requires |chunk| <= LineBytes && k < |chunk|
    ensures var line := HexLine(chunk, indent);
      var col := Column(indent, k);
      && |line| == indent + HexWidth + 1 + |chunk|
      && line[col..col + 2] == Hex2(chunk[k])
      && ParseHex2(line[col..col + 2]) == chunk[k] as int
      && line[indent + HexWidth + 1 + k] == GutterChar(chunk[k])
  {
    var line := HexLine(chunk, indent);
    var col := Column(indent, k);
    var h := Hex2(chunk[k]);
    HexChar(chunk, indent, k, 0);
    HexChar(chunk, indent, k, 1);
    PairAt(line, col, h);
    GutterColumn(chunk, indent, k);
    Hex2RoundTrip(chunk[k]);
  }

  /** Digit `c` of byte `k`'s hex pair sits at column
      `indent + 5 * (k / 2) + 2 * (k % 2) + c` of its line. */
  lemma HexChar(chunk: seq<byte>, indent: nat, k: nat, c: nat)
    requires |chunk| <= LineBytes && k < |chunk| && c < 2
    ensures var col := Column(indent, k) + c;
      && |HexLine(chunk, indent)| == indent + HexWidth + 1 + |chunk|
      && |Hex2(chunk[k])| == 2
      && HexLine(chunk, indent)[col] == Hex2(chunk[k])[c]
  {
    var slots := SlotList(chunk, 8);
    FlattenAt(slots, k / 2, 2 * (k % 2) + c);
    SlotShowsByte(chunk, k, c);
    HexColumn(chunk, indent, 5 * (k / 2) + 2 * (k % 2) + c);
  }

  /** Line `r` holds bytes `16r ..` of the input: byte `k` is entry `k % 16` of
      the chunk of line `k / 16`, and all lines but the last are full. */
  lemma ChunkHoldsByte(p: seq<byte>, k: nat)
    requires k < |p|
    ensures k / LineBytes < LineCount(|p|)
    ensures k % LineBytes < |Chunk(p, k / LineBytes)|
    ensures Chunk(p, k / LineBytes)[k % LineBytes] == p[k]
  {
  }

  /** The dump loses nothing: every byte of `p` can be read back from the hex
      digits of its line, and its gutter column shows it when it is printable. */
  lemma DumpShowsByte(p: seq<byte>, indent: nat, k: nat)
    requires k < |p|
    ensures |HexLines(p, indent)| == LineCount(|p|) > k / LineBytes
    ensures var line := HexLines(p, indent)[k / LineBytes];
      var col := Column(indent, k % LineBytes);
      && |line| > indent + HexWidth + 1 + k % LineBytes
      && line[col..col + 2] == Hex2(p[k])
      && ParseHex2(line[col..col + 2]) == p[k] as int
      && line[indent + HexWidth + 1 + k % LineBytes] == GutterChar(p[k])
  {
    ChunkHoldsByte(p, k);
    var chunk := Chunk(p, k / LineBytes);
    assert HexLines(p, indent)[k / LineBytes] == HexLine(chunk, indent);
    LineShowsByte(chunk, indent, k % LineBytes);
  }

  /** Seventeen bytes make two lines: a full one of 57 characters after the
      indent, and one of 42 holding the lone last byte, blanks for the other
      seven slots, a blank and its gutter character. */
  lemma SeventeenBytes(p: seq<byte>, indent: nat)
    requires |p| == 17
    ensures |HexLines(p, indent)| == 2
    ensures |HexLines(p, indent)[0]| == indent + 57 && |HexLines(p, indent)[1]| == indent + 42
    ensures HexLines(p, indent)[1] == Spaces(indent) + Hex2(p[16]) + Spaces(38) + " " + [GutterChar(p[16])]
  {
    assert LineCount(|p|) == 2;
    assert HexLines(p, indent)[0] == HexLine(Chunk(p, 0), indent);
    assert HexLines(p, indent)[1] == HexLine(Chunk(p, 1), indent);
    assert ChunkSize(|p| - 16) == 1 && ChunkSize(|p|) == 16;
    LineLength(Chunk(p, 0), indent);
    assert Chunk(p, 1) == p[16..] == [p[16]];
    LastLine(Chunk(p, 1), p[16], indent);
  }

  /** The line of a single byte: the indent, its two hex digits, blanks for the
      rest of the hex area, a blank and its gutter character. */
  lemma LastLine(chunk: seq<byte>, b: byte, indent: nat)
    requires chunk == [b]
    ensures HexLine(chunk, indent) == Spaces(indent) + Hex2(b) + Spaces(38) + " " + [GutterChar(b)]
  {
    var line := HexLine(chunk, indent);
    var want := Spaces(indent) + Hex2(b) + Spaces(38) + " " + [GutterChar(b)];
    LineLength(chunk, indent);
    LineBlanks(chunk, indent);
    forall c | 0 <= c < indent + 42
      ensures line[c] == want[c]
    {
      if c < indent {
      } else if c < indent + HexWidth {
        HexArea(chunk, indent, c - indent);
      } else if c == indent + HexWidth {
      } else {
        GutterColumn(chunk, indent, 0);
      }
    }
  }

  /** A seventeenth byte that is a line feed starts the second line, after the
      indent, as `0a` and shows as a dot in its gutter. */
  lemma LineFeedShown(p: seq<byte>, indent: nat)
    requires |p| == 17 && p[16] == 0x0a
    ensures |HexLines(p, indent)| == 2 && |HexLines(p, indent)[1]| > indent + 41
    ensures HexLines(p, indent)[1][indent..indent + 2] == "0a" && HexLines(p, indent)[1][indent + 41] == '.'
  {
    DumpShowsByte(p, indent, 16);
    assert 16 / LineBytes == 1 && 16 % LineBytes == 0;
    assert Column(indent, 0) == indent;
    assert Hex2(0x0a) == "0a";
    assert GutterChar(0x0a) == '.';
  }
}

=== FILE: seqs.dfy ===
/** Sequence facts used by the walker's proofs, stated for any element type. */
module Seqs {
  /** The elements of several blocks, one block after the other. */
  function Flatten<T>(blocks: seq<seq<T>>): seq<T> {
    if blocks == [] then [] else Flatten(blocks[..|blocks| - 1]) + blocks[|blocks| - 1]
  }

  lemma {:induction false} FlattenConcat<T>(a: seq<seq<T>>, b: seq<seq<T>>)
    ensures Flatten(a + b) == Flatten(a) + Flatten(b)
    decreases |b|
  {
    if b == [] {
      assert a + b == a;
    } else {
      var n := |b| - 1;
      FlattenConcat(a, b[..n]);
      assert (a + b)[..|a + b| - 1] == a + b[..n];
    }
  }

  lemma FlattenOne<T>(block: seq<T>)
    ensures Flatten([block]) == block
  {
    assert [block][..0] == [];
  }

  /** A sequence is its part before `k`, its element `k` and its part after. */
  lemma SplitAt<T>(xs: seq<T>, k: nat)
    requires k < |xs|
    ensures xs == (xs[..k] + [xs[k]]) + xs[k + 1..]
  {
  }

  lemma SplitTwo<T>(xs: seq<T>, k: nat)
    requires k <= |xs|
    ensures xs == xs[..k] + xs[k..]
  {
  }

  lemma SliceOfSuffix<T>(s: seq<T>, i: nat, n: nat, j: nat)
    requires i + n <= |s| && j <= n
    ensures s[i..][..n][..j] == s[i..i + j] && s[i..][..j] == s[i..i + j]
  {
  }

  lemma SliceOfPrefix<T>(s: seq<T>, n: nat, i: nat, j: nat)
    requires i <= j <= n <= |s|
    ensures s[..n][i..j] == s[i..j]
  {
  }

  lemma SplitHead<T>(xs: seq<T>)
    requires xs != []
    ensures xs == [xs[0]] + xs[1..]
  {
  }

  lemma ConsParts<T>(x: T, ys: seq<T>)
    ensures ([x] + ys)[0] == x && ([x] + ys)[1..] == ys
  {
  }

  /** Two elements in a row, read as a slice. */
  lemma PairAt<T>(s: seq<T>, i: nat, h: seq<T>)
    requires |h| == 2 && i + 2 <= |s| && s[i] == h[0] && s[i + 1] == h[1]
    ensures s[i..i + 2] == h
  {
  }
}

=== FILE: text.dfy ===
/** The pieces of printf formatting the dumper uses: `%d`/`%u` of a non-negative
    number, `%02d`, `%+03d`, `%02x` and `%*s` with an empty argument.  The
    numeric formatters have a parser beside them, and their round trips are
    proved; `%*s` is pinned down character by character. */
module Text {

  /** The decimal digit for 0..9. */
  function DigitChar(d: nat): (c: char)
    requires d < 10
    ensures '0' <= c <= '9'
  {
    (d + '0' as int) as char
  }

  predicate IsDigit(c: char) {
    '0' <= c <= '9'
  }

  predicate AllDigits(s: string) {
    forall i :: 0 <= i < |s| ==> IsDigit(s[i])
  }

  /** `%d` / `%u` of a non-negative number: shortest decimal, no sign. */
  function Dec(n: nat): (r: string)
    ensures |r| >= 1 && AllDigits(r)
    ensures r[0] == '0' ==> n == 0
    decreases n
  {
    if n < 10 then [DigitChar(n)] else Dec(n / 10) + [DigitChar(n % 10)]
  }

  /** The value of a string of decimal digits (the empty string reads as 0). */
  function ParseDec(s: string): int
  {
    if s == [] then 0
    else ParseDec(s[..|s| - 1]) * 10 + (s[|s| - 1] as int - '0' as int)
  }

  lemma {:induction false} DecRoundTrip(n: nat)
    ensures ParseDec(Dec(n)) == n
    decreases n
  {
    var r := Dec(n);
    if n >= 10 {
      assert r[..|r| - 1] == Dec(n / 10);
      DecRoundTrip(n / 10);
    }
  }

  /** Numbers of four decimal digits (years 1000..9999) print with four characters. */
  lemma DecFourDigits(n: nat)
    requires 1000 <= n < 10000
    ensures |Dec(n)| == 4
  {
    assert |Dec(n / 1000)| == 1;
    assert |Dec(n / 100)| == 2 by { assert (n / 100) / 10 == n / 1000; }
    assert |Dec(n / 10)| == 3 by { assert (n / 10) / 10 == n / 100; }
  }

  /** `%02d` of a non-negative number: at least two digits, zero-padded on the left. */
  function Pad2(n: nat): (r: string)
    ensures AllDigits(r) && |r| >= 2
    ensures n < 100 ==> |r| == 2
    ensures r[0] == '0' ==> n < 10
    ensures ParseDec(r) == n
  {
    DecRoundTrip(n);
    if n < 10 then "0" + Dec(n) else Dec(n)
  }

  /** `%+03d`: an explicit sign, then the magnitude zero-padded to two digits. */
  function SignedPad2(v: int): (r: string)
    ensures |r| >= 3 && r[0] == (if v < 0 then '-' else '+')
    ensures AllDigits(r[1..]) && (r[1] == '0' ==> -10 < v < 10)
    ensures ParseDec(r[1..]) == (if v < 0 then -v else v)
    ensures -100 < v < 100 ==> |r| == 3
  {
    var r := (if v < 0 then "-" else "+") + Pad2(if v < 0 then -v else v);
    assert r[1..] == Pad2(if v < 0 then -v else v);
    r
  }

  /** `%*s` with an empty argument: `n` blanks. */
  function Spaces(n: nat): (r: string)
    ensures |r| == n
    ensures forall i :: 0 <= i < n ==> r[i] == ' '
  {
    seq(n, _ => ' ')
  }

  /** A lower-case hexadecimal digit for 0..15. */
  function HexDigit(d: nat): (c: char)
    requires d < 16
    ensures '0' <= c <= 'f'
  {
    if d < 10 then (d + '0' as int) as char else (d - 10 + 'a' as int) as char
  }

  predicate IsHexDigit(c: char) {
    '0' <= c <= '9' || 'a' <= c <= 'f'
  }

  /** The value of a lower-case hexadecimal digit. */
  function HexValue(c: char): (v: nat)
    ensures v < 16
  {
    if '0' <= c <= '9' then c as int - '0' as int
    else if 'a' <= c <= 'f' then c as int - 'a' as int + 10
    else 0
  }

  /** `%02x` of a byte: two lower-case hexadecimal digits, high nibble first. */
  function Hex2(b: bv8): (r: string)
    ensures |r| == 2
  {
    [HexDigit((b as int) / 16), HexDigit((b as int) % 16)]
  }

  /** Reads back two hexadecimal digits as the value of a byte. */
  function ParseHex2(s: string): nat
    requires |s| == 2
  {
    HexValue(s[0]) * 16 + HexValue(s[1])
  }

  lemma HexDigitRoundTrip(d: nat)
    requires d < 16
    ensures IsHexDigit(HexDigit(d)) && HexValue(HexDigit(d)) == d
  {
  }

  /** `%02x` prints two hexadecimal digits that read back as the byte. */
  lemma Hex2RoundTrip(b: bv8)
    ensures IsHexDigit(Hex2(b)[0]) && IsHexDigit(Hex2(b)[1])
    ensures ParseHex2(Hex2(b)) == b as int
  {
    var v := b as int;
    HexDigitRoundTrip(v / 16);
    HexDigitRoundTrip(v % 16);
    assert ParseHex2(Hex2(b)) == (v / 16) * 16 + v % 16;
  }
}

=== FILE: vddump.dfy ===
/** The program's entry point: read one 2048-byte sector, check that it is an
    ISO 9660 volume descriptor, look its type code up in `vd_types[]`, and dump
    it with the table of its type, or stop with an error message. */
module Vddump {
  import opened Wrappers
  import opened Text
  import opened Fields
  import opened Walker

  /** An entry of `vd_types[]`: a type name, its code (the descriptor's first
      byte), whether it is supported, and its field table when it is. */
  datatype VdType = VdType(name: string, code: byte, supported: bool, desc: Option<seq<Field>>)

  /** `vd_types[]`, ending with its sentinel; `svd` is the supplementary table
      the program derives at start-up. */
  function Registry(svd: seq<Field>): seq<VdType> {
    [ VdType("Boot Record",                      0,   false, None),
      VdType("Primary Volume Descriptor",        1,   true,  Some(PrimaryTable)),
      VdType("Supplementary Volume Descriptor",  2,   true,  Some(svd)),
      VdType("Volume Partition Descriptor",      3,   false, None),
      VdType("Volume Descriptor Set Terminator", 255, false, None),
      VdType("",                                 0,   false, None) ]
  }

  /** The standard identifier `CD001` and the version byte 1, expected at
      bytes 1 to 6 of every volume descriptor. */
  const Signature: seq<byte> := [0x43, 0x44, 0x30, 0x30, 0x31, 0x01]

  /** Why the program stops with exit status 1. */
  datatype Failure =
    | ShortRead(available: nat)
    | NotAVolumeDescriptor
    | Unsupported(name: string)
    | InvalidCode(code: byte)

  /** The line the program writes to standard error before exiting. */
  function Message(e: Failure): string {
    match e
    case ShortRead(n) => "Bytes expected: 2048, available: " + Dec(n)
    case NotAVolumeDescriptor => "It does not look like some iso9660 volume descriptor"
    case Unsupported(name) => "This tool does not support VD of type '" + name + "'"
    case InvalidCode(c) => "Invalid VD code: " + Dec(c as nat)
  }

  /** A type list that the scan stops in: some entry has an empty name. */
  predicate Listed(types: seq<VdType>) {
    exists k :: 0 <= k < |types| && types[k].name == ""
  }

  /** The first entry from `from` on, before the sentinel, whose code is `code`. */
  function Lookup(types: seq<VdType>, code: byte, from: nat): (r: Option<nat>)
    decreases |types| - from
  {
    if from >= |types| || types[from].name == "" then None
    else if types[from].code == code then Some(from)
    else Lookup(types, code, from + 1)
  }

  /** `Lookup` finds the first matching entry that comes before every entry with
      an empty name, and finds nothing exactly when no such entry matches. */
  lemma {:induction false} LookupFirst(types: seq<VdType>, code: byte, from: nat)
    ensures var r := Lookup(types, code, from);
      && (r.Some? ==>
            && from <= r.value < |types|
            && types[r.value].code == code
            && forall j :: from <= j <= r.value ==> types[j].name != "" && (j < r.value ==> types[j].code != code))
      && (r.None? ==>
            forall j :: from <= j < |types| && types[j].code == code ==>
              exists e :: from <= e <= j && types[e].name == "")
    decreases |types| - from
  {
    if from < |types| && types[from].name != "" && types[from].code != code {
      LookupFirst(types, code, from + 1);
      var r := Lookup(types, code, from);
      if r.None? {
        forall j | from <= j < |types| && types[j].code == code
          ensures exists e :: from <= e <= j && types[e].name == ""
        {
          assert j != from;
          var e :| from + 1 <= e <= j && types[e].name == "";
        }
      }
    }
  }

  /** The scan of `vd_types[]` in `main`: walk the list until the sentinel and stop
      at the first entry whose code is the descriptor's first byte. */
  method FindType(types: seq<VdType>, code: byte) returns (found: Option<nat>)
    requires Listed(types)
    ensures found == Lookup(types, code, 0)
  {
    var i := 0;
    while types[i].name != ""
      invariant i < |types|
      invariant Lookup(types, code, 0) == Lookup(types, code, i)
      invariant exists k :: i <= k < |types| && types[k].name == ""
      decreases |types| - i
    {
      if types[i].code == code {
        return Some(i);
      }
      i := i + 1;
    }
    return None;
  }

  /** The types the program dumps are exactly the primary and the supplementary
      one, and each has a table. */
  lemma RegistryShape(svd: seq<Field>)
    ensures var types := Registry(svd);
      && |types| == 6 && Listed(types)
      && types[1].supported && types[1].desc == Some(PrimaryTable)
      && types[2].supported && types[2].desc == Some(svd)
      && forall i :: 0 <= i < |types| && types[i].supported ==> i == 1 || i == 2
  {
    assert Registry(svd)[5].name == "";
  }

  /** The outcome of one run on what the single `read` of standard input returns
      (at most a sector): the dump written to standard output (exit status 0),
      or the reason for writing `Message` to standard error (exit status 1). */
  function Outcome(stdin: seq<byte>, colors: bool): Result<seq<string>, Failure> {
    var n := if |stdin| < SectorSize then |stdin| else SectorSize;
    var buf := stdin[..n];
    if n < SectorSize then Failure(ShortRead(n))
    else if buf[1..7] != Signature then Failure(NotAVolumeDescriptor)
    else
      var types := Registry(SupplementaryTable);
      RegistryShape(SupplementaryTable);
      LookupFirst(types, buf[0], 0);
      match Lookup(types, buf[0], 0)
      case None => Failure(InvalidCode(buf[0]))
      case Some(i) =>
        if !types[i].supported then Failure(Unsupported(types[i].name))
        else
          DumpableTables(buf, SupplementaryTable);
          Success(Walk(buf, Entries(types[i].desc.value), 0, Colors(colors)))
  }

  /** Both tables the program dumps end in a sentinel and fit a sector. */
  lemma DumpableTables(buf: seq<byte>, svd: seq<Field>)
    requires |buf| == SectorSize && svd == SupplementaryTable
    ensures forall i :: 0 <= i < |Registry(svd)| && Registry(svd)[i].desc.Some? ==>
      Terminated(Registry(svd)[i].desc.value) && Fits(buf, Entries(Registry(svd)[i].desc.value))
  {
    PrimaryLayout();
    SupplementaryLayout();
  }

  /** `main` after option parsing: blank the colours unless asked for, derive the
      supplementary table, take one sector, check its signature, find its type,
      and dump it or fail. */
  method Run(stdin: seq<byte>, colors: bool) returns (r: Result<seq<string>, Failure>)
    ensures r == Outcome(stdin, colors)
  {
    var pal := Colors(colors);
    PrimaryLayout();
    var svd := BuildSupplementary(PrimaryTable);
    var n := if |stdin| < SectorSize then |stdin| else SectorSize;
    var buf := stdin[..n];
    if n < SectorSize {
      return Failure(ShortRead(n));
    }
    if buf[1..7] != Signature {
      return Failure(NotAVolumeDescriptor);
    }
    var types := Registry(svd[..]);
    RegistryShape(svd[..]);
    var found := FindType(types, buf[0]);
    LookupFirst(types, buf[0], 0);
    if found.None? {
      return Failure(InvalidCode(buf[0]));
    }
    var i := found.value;
    if !types[i].supported {
      return Failure(Unsupported(types[i].name));
    }
    DumpableTables(buf, svd[..]);
    var out := DumpFieldList(buf, types[i].desc.value, 0, pal);
    return Success(out);
  }

  /** The input is dumped only when a whole sector arrives whose bytes 1 to 6
      are the signature and whose type code is 1 or 2; a short read and a bad
      signature are reported as such. */
  lemma Rejections(stdin: seq<byte>, colors: bool)
    ensures Outcome(stdin, colors) == Failure(ShortRead(|stdin|)) <==> |stdin| < SectorSize
    ensures |stdin| >= SectorSize ==>
      (Outcome(stdin, colors) == Failure(NotAVolumeDescriptor) <==> stdin[1..7] != Signature)
    ensures Outcome(stdin, colors).Success? ==>
      |stdin| >= SectorSize && stdin[1..7] == Signature && (stdin[0] == 1 || stdin[0] == 2)
  {
    if |stdin| >= SectorSize {
      var buf := stdin[..SectorSize];
      assert buf[1..7] == stdin[1..7];
      if buf[1..7] == Signature {
        var types := Registry(SupplementaryTable);
        RegistryShape(SupplementaryTable);
        LookupFirst(types, buf[0], 0);
      }
    }
  }

  /** Which entry of `vd_types[]` each code selects: codes 0 to 3 and 255 their
      own entry (code 0 the Boot Record, never the sentinel that shares its
      code), and every other code none. */
  lemma Scan(svd: seq<Field>, code: byte)
    ensures var r := Lookup(Registry(svd), code, 0);
      && (code == 0 ==> r == Some(0))
      && (code == 1 ==> r == Some(1))
      && (code == 2 ==> r == Some(2))
      && (code == 3 ==> r == Some(3))
      && (code == 255 ==> r == Some(4))
      && (code !in {0, 1, 2, 3, 255} ==> r == None)
  {
    var types := Registry(svd);
    assert Lookup(types, code, 0) == if code == 0 then Some(0) else Lookup(types, code, 1);
    assert Lookup(types, code, 1) == if code == 1 then Some(1) else Lookup(types, code, 2);
    assert Lookup(types, code, 2) == if code == 2 then Some(2) else Lookup(types, code, 3);
    assert Lookup(types, code, 3) == if code == 3 then Some(3) else Lookup(types, code, 4);
    assert Lookup(types, code, 4) == if code == 255 then Some(4) else Lookup(types, code, 5);
    assert Lookup(types, code, 5) == None;
  }

  /** A whole sector with the signature goes to the entry the scan selects. */
  lemma Signed(stdin: seq<byte>, colors: bool)
    requires |stdin| >= SectorSize && stdin[1..7] == Signature
    ensures var types := Registry(SupplementaryTable);
      var buf := stdin[..SectorSize];
      match Lookup(types, stdin[0], 0)
      case None => Outcome(stdin, colors) == Failure(InvalidCode(stdin[0]))
      case Some(i) =>
        && i < |types|
        && (!types[i].supported ==> Outcome(stdin, colors) == Failure(Unsupported(types[i].name)))
        && (types[i].supported ==>
              && types[i].desc.Some? && Terminated(types[i].desc.value)
              && Fits(buf, Entries(types[i].desc.value))
              && Outcome(stdin, colors) == Success(Walk(buf, Entries(types[i].desc.value), 0, Colors(colors))))
  {
    var buf := stdin[..SectorSize];
    assert buf[1..7] == stdin[1..7];
    RegistryShape(SupplementaryTable);
    LookupFirst(Registry(SupplementaryTable), stdin[0], 0);
    DumpableTables(buf, SupplementaryTable);
  }

  /** Code 1 dumps the sector with the primary table. */
  lemma PrimaryDump(stdin: seq<byte>, colors: bool)
    requires |stdin| >= SectorSize && stdin[1..7] == Signature && stdin[0] == 1
    ensures Fits(stdin[..SectorSize], PrimaryFields)
      && Outcome(stdin, colors) == Success(Walk(stdin[..SectorSize], PrimaryFields, 0, Colors(colors)))
  {
    Scan(SupplementaryTable, 1);
    Signed(stdin, colors);
    PrimaryLayout();
  }

  /** Code 2 dumps the sector with the supplementary table. */
  lemma SupplementaryDump(stdin: seq<byte>, colors: bool)
    requires |stdin| >= SectorSize && stdin[1..7] == Signature && stdin[0] == 2
    ensures Fits(stdin[..SectorSize], DeriveSupplementary(PrimaryFields))
      && Outcome(stdin, colors)
      == Success(Walk(stdin[..SectorSize], DeriveSupplementary(PrimaryFields), 0, Colors(colors)))
  {
    Scan(SupplementaryTable, 2);
    Signed(stdin, colors);
    SupplementaryLayout();
  }

  /** Codes 0, 3 and 255 name a type the program does not dump; every other
      code other than 1 and 2 is invalid. */
  lemma Refused(stdin: seq<byte>, colors: bool)
    requires |stdin| >= SectorSize && stdin[1..7] == Signature
    ensures stdin[0] == 0 ==> Outcome(stdin, colors) == Failure(Unsupported("Boot Record"))
    ensures stdin[0] == 3 ==> Outcome(stdin, colors) == Failure(Unsupported("Volume Partition Descriptor"))
    ensures stdin[0] == 255 ==> Outcome(stdin, colors) == Failure(Unsupported("Volume Descriptor Set Terminator"))
    ensures stdin[0] !in {0, 1, 2, 3, 255} ==> Outcome(stdin, colors) == Failure(InvalidCode(stdin[0]))
  {
    Scan(SupplementaryTable, stdin[0]);
    Signed(stdin, colors);
  }

  /** Each message carries its cause: the number of bytes read, the type name,
      or the code, which read back from the text. */
  lemma MessagesReadBack(e: Failure)
    ensures e.ShortRead? ==>
      Message(e)[..33] == "Bytes expected: 2048, available: " && ParseDec(Message(e)[33..]) == e.available
    ensures e.Unsupported? ==>
      var m := Message(e);
      |m| == 40 + |e.name| && m[39..|m| - 1] == e.name
    ensures e.InvalidCode? ==>
      Message(e)[..17] == "Invalid VD code: " && ParseDec(Message(e)[17..]) == e.code as int
  {
    match e
    case ShortRead(n) =>
      DecRoundTrip(n);
      assert Message(e)[33..] == Dec(n);
    case Unsupported(name) =>
    case InvalidCode(c) =>
      DecRoundTrip(c as nat);
      assert Message(e)[17..] == Dec(c as nat);
    case NotAVolumeDescriptor =>
  }
}

=== FILE: walker.dfy ===
/** `dump_field_list`: for every field of a table, in table order, a header line
    `-- name offset length` followed by ` (value)` when the field's encoding
    yields a value, and then the hex dump of the field's bytes, or, for the
    embedded Directory Record, the same walk over the directory record table on
    the record's own bytes, two columns further in. */
module Walker {
  import opened Wrappers
  import opened Text
  import opened Fields
  import opened Decode
  import opened HexDump
  import opened Seqs

  /** The three entries of `term[]` the walker prints. */
  datatype Palette = Palette(blue: string, green: string, reset: string)

  const Escape: char := 27 as char

  /** With `-c` the ANSI codes for blue, green and reset; without it every entry
      of `term[]` is blanked. */
  function Colors(on: bool): Palette {
    if on then Palette([Escape] + "[34m", [Escape] + "[32m", [Escape] + "[m")
    else Palette("", "", "")
  }

  /** `%u` of a number, or the date text as it is. */
  function ValueText(v: Value): string {
    match v
    case Number(n) => Dec(n)
    case Stamp(text) => text
  }

  /** ` (value)` when there is a value to print, nothing otherwise. */
  function Suffix(value: Option<Value>, pal: Palette): string {
    match value
    case None => ""
    case Some(v) => " (" + pal.green + ValueText(v) + pal.reset + ")"
  }

  /** The header line of a field. */
  function Header(f: Field, value: Option<Value>, indent: nat, pal: Palette): string {
    Spaces(indent) + "-- " + pal.blue + f.name + pal.reset + " " + Dec(f.offset) + " "
      + Dec(f.length) + Suffix(value, pal)
  }

  /** Every field lies inside `buf` and is wide enough for its encoding. */
  predicate Fits(buf: seq<byte>, fields: seq<Field>) {
    InBounds(fields, |buf|) && WideEnough(fields)
  }

  /** The measure the walk's recursion decreases: 1 for a table that holds an
      embedded Directory Record, 0 otherwise. */
  function Nesting(fields: seq<Field>): (d: nat)
    ensures d <= 1
    ensures d == 1 <==> HasRecord(fields)
  {
    if HasRecord(fields) then 1 else 0
  }

  /** A prefix of a table holds no more records than the table; a table whose
      last field is a record has one. */
  lemma PrefixNesting(fields: seq<Field>)
    requires fields != []
    ensures Nesting(fields[..|fields| - 1]) <= Nesting(fields)
    ensures fields[|fields| - 1].format == F910 ==> Nesting(fields) == 1
  {
    var n := |fields| - 1;
    if HasRecord(fields[..n]) {
      var k :| 0 <= k < n && fields[..n][k].format == F910;
      assert fields[k].format == F910;
    }
    if fields[n].format == F910 {
      assert HasRecord(fields);
    }
  }

  /** The record table fits inside any record-sized region. */
  lemma DirectoryFits(data: seq<byte>)
    requires |data| >= RecordSize
    ensures Fits(data, DirectoryFields) && Nesting(DirectoryFields) == 0
  {
    DirectoryLayout();
  }

  /** The lines printed for one field: its header, then its body. */
  function FieldOutput(buf: seq<byte>, f: Field, indent: nat, pal: Palette): seq<string>
    requires f.offset + f.length <= |buf| && Width(f.format) <= f.length
    decreases if f.format == F910 then 1 else 0, 0
  {
    var data := buf[f.offset..];
    [Header(f, DecodeField(data, f.format), indent, pal)]
      + if f.format == F910 then
          DirectoryFits(data);
          Walk(data, DirectoryFields, indent + 2, pal)
        else HexLines(data[..f.length], indent)
  }

  /** A field that is a record makes its table's nesting one. */
  lemma RecordNesting(fields: seq<Field>, k: nat)
    requires k < |fields|
    ensures fields[k].format == F910 ==> Nesting(fields) == 1
  {
    if fields[k].format == F910 {
      assert HasRecord(fields);
    }
  }

  /** The lines printed for each field of a list, field by field. */
  function Blocks(buf: seq<byte>, fields: seq<Field>, indent: nat, pal: Palette): seq<seq<string>>
    requires Fits(buf, fields)
    decreases Nesting(fields), |fields|
  {
    seq(|fields|, k requires 0 <= k < |fields| =>
      RecordNesting(fields, k);
      FieldOutput(buf, fields[k], indent, pal))
  }

  /** The lines printed for a list of fields, one field after the other. */
  function Walk(buf: seq<byte>, fields: seq<Field>, indent: nat, pal: Palette): seq<string>
    requires Fits(buf, fields)
    decreases Nesting(fields), |fields| + 1
  {
    Flatten(Blocks(buf, fields, indent, pal))
  }

  /** The blocks of a prefix of a list are the prefix of its blocks. */
  lemma BlocksPrefix(buf: seq<byte>, fields: seq<Field>, j: nat, indent: nat, pal: Palette)
    requires Fits(buf, fields) && j <= |fields|
    ensures Fits(buf, fields[..j])
    ensures Blocks(buf, fields[..j], indent, pal) == Blocks(buf, fields, indent, pal)[..j]
  {
    var xs, ys := Blocks(buf, fields[..j], indent, pal), Blocks(buf, fields, indent, pal);
    forall k | 0 <= k < j
      ensures xs[k] == ys[k]
    {
      assert fields[..j][k] == fields[k];
    }
  }

  /** The blocks of a suffix of a list are the suffix of its blocks. */
  lemma BlocksSuffix(buf: seq<byte>, fields: seq<Field>, i: nat, indent: nat, pal: Palette)
    requires Fits(buf, fields) && i <= |fields|
    ensures Fits(buf, fields[i..])
    ensures Blocks(buf, fields[i..], indent, pal) == Blocks(buf, fields, indent, pal)[i..]
  {
    var xs, ys := Blocks(buf, fields[i..], indent, pal), Blocks(buf, fields, indent, pal);
    forall k | 0 <= k < |fields| - i
      ensures xs[k] == ys[i + k]
    {
      assert fields[i..][k] == fields[i + k];
    }
  }

  /** A walk is the walk of all fields but the last, then the last field's lines. */
  lemma WalkSnoc(buf: seq<byte>, fields: seq<Field>, indent: nat, pal: Palette)
    requires Fits(buf, fields) && fields != []
    ensures Fits(buf, fields[..|fields| - 1])
    ensures Walk(buf, fields, indent, pal)
      == Walk(buf, fields[..|fields| - 1], indent, pal) + FieldOutput(buf, fields[|fields| - 1], indent, pal)
  {
    BlocksPrefix(buf, fields, |fields| - 1, indent, pal);
  }

  /** One more field of a list adds its lines to the walk of the fields before
      it. */
  lemma WalkStep(buf: seq<byte>, fields: seq<Field>, k: nat, indent: nat, pal: Palette)
    requires Fits(buf, fields) && k < |fields|
    ensures Fits(buf, fields[..k]) && Fits(buf, fields[..k + 1])
    ensures Walk(buf, fields[..k + 1], indent, pal)
      == Walk(buf, fields[..k], indent, pal) + FieldOutput(buf, fields[k], indent, pal)
  {
    BlocksPrefix(buf, fields, k + 1, indent, pal);
    var front := fields[..k + 1];
    WalkSnoc(buf, front, indent, pal);
    assert front[..k] == fields[..k] && front[k] == fields[k];
  }

  /** Walking two lists one after the other prints the first list's lines and then
      the second's. */
  lemma WalkConcat(buf: seq<byte>, a: seq<Field>, b: seq<Field>, indent: nat, pal: Palette)
    requires Fits(buf, a) && Fits(buf, b)
    ensures Fits(buf, a + b)
    ensures Walk(buf, a + b, indent, pal) == Walk(buf, a, indent, pal) + Walk(buf, b, indent, pal)
  {
    var ab := a + b;
    assert Fits(buf, ab) by {
      assert forall k :: 0 <= k < |ab| ==> ab[k] == (if k < |a| then a[k] else b[k - |a|]);
    }
    BlocksPrefix(buf, ab, |a|, indent, pal);
    BlocksSuffix(buf, ab, |a|, indent, pal);
    assert ab[..|a|] == a && ab[|a|..] == b;
    var xs := Blocks(buf, ab, indent, pal);
    SplitTwo(xs, |a|);
    FlattenConcat(xs[..|a|], xs[|a|..]);
  }

  /** Every entry is printed exactly once and in table order: the walk of a table
      is the walk of the fields before entry `k`, then entry `k`'s lines, then the
      walk of the fields after it. */
  lemma EntryInPlace(buf: seq<byte>, fields: seq<Field>, k: nat, indent: nat, pal: Palette)
    requires Fits(buf, fields) && k < |fields|
    ensures Fits(buf, fields[..k]) && Fits(buf, fields[k + 1..])
    ensures Walk(buf, fields, indent, pal)
      == Walk(buf, fields[..k], indent, pal)
         + FieldOutput(buf, fields[k], indent, pal)
         + Walk(buf, fields[k + 1..], indent, pal)
  {
    var xs := Blocks(buf, fields, indent, pal);
    BlocksPrefix(buf, fields, k, indent, pal);
    BlocksSuffix(buf, fields, k + 1, indent, pal);
    SplitAt(xs, k);
    FlattenConcat(xs[..k] + [xs[k]], xs[k + 1..]);
    FlattenConcat(xs[..k], [xs[k]]);
    FlattenOne(xs[k]);
  }

  /** How many lines a field prints; it depends on the table alone. */
  function FieldLines(f: Field): nat
    decreases if f.format == F910 then 1 else 0, 0
  {
    1 + if f.format == F910 then
          DirectoryLayout();
          TotalLines(DirectoryFields)
        else LineCount(f.length)
  }

  /** How many lines a list of fields prints. */
  function TotalLines(fields: seq<Field>): nat
    decreases Nesting(fields), |fields|
  {
    if fields == [] then 0
    else
      var n := |fields| - 1;
      PrefixNesting(fields);
      TotalLines(fields[..n]) + FieldLines(fields[n])
  }

  /** The number of lines printed is fixed by the table: neither the bytes of the
      descriptor, nor the indent, nor the colours change it. */
  lemma {:induction false} WalkLength(buf: seq<byte>, fields: seq<Field>, indent: nat, pal: Palette)
    requires Fits(buf, fields)
    ensures |Walk(buf, fields, indent, pal)| == TotalLines(fields)
    decreases Nesting(fields), |fields|
  {
    if fields != [] {
      var n := |fields| - 1;
      PrefixNesting(fields);
      WalkSnoc(buf, fields, indent, pal);
      WalkLength(buf, fields[..n], indent, pal);
      FieldLength(buf, fields[n], indent, pal);
    }
  }

  lemma {:induction false} FieldLength(buf: seq<byte>, f: Field, indent: nat, pal: Palette)
    requires f.offset + f.length <= |buf| && Width(f.format) <= f.length
    ensures |FieldOutput(buf, f, indent, pal)| == FieldLines(f)
    decreases if f.format == F910 then 1 else 0, 0
  {
    if f.format == F910 {
      var data := buf[f.offset..];
      DirectoryFits(data);
      WalkLength(data, DirectoryFields, indent + 2, pal);
    }
  }

  /** The header of entry `k` is the line after all lines of the entries before
      it. */
  lemma HeaderLine(buf: seq<byte>, fields: seq<Field>, k: nat, indent: nat, pal: Palette)
    requires Fits(buf, fields) && k < |fields|
    ensures Fits(buf, fields[..k])
    ensures var at := TotalLines(fields[..k]);
      var f := fields[k];
      && at < |Walk(buf, fields, indent, pal)|
      && Walk(buf, fields, indent, pal)[at] == Header(f, DecodeField(buf[f.offset..], f.format), indent, pal)
  {
    EntryInPlace(buf, fields, k, indent, pal);
    WalkLength(buf, fields[..k], indent, pal);
  }

  /** The header ends in `)` exactly when a value was decoded, whatever the
      colours: without one it ends in the last digit of the length. */
  lemma SuffixIffValue(f: Field, value: Option<Value>, indent: nat, pal: Palette)
    ensures var h := Header(f, value, indent, pal);
      |h| > 0 && (h[|h| - 1] == ')' <==> value.Some?)
  {
    var h := Header(f, value, indent, pal);
    var len := Dec(f.length);
    if value.None? {
      assert h[|h| - 1] == len[|len| - 1];
      assert IsDigit(len[|len| - 1]);
    }
  }

  /** `dump_field_list(buf, pf, indent)`: the walk of `pf` over a sentinel-terminated
      table. */
  method DumpFieldList(buf: seq<byte>, table: seq<Field>, indent: nat, pal: Palette)
    returns (out: seq<string>)
    requires Terminated(table) && Fits(buf, Entries(table))
    ensures out == Walk(buf, Entries(table), indent, pal)
    decreases Nesting(Entries(table)), 1
  {
    ghost var fields := Entries(table);
    out := [];
    var k := 0;
    while table[k].name != ""
      invariant k <= |fields|
      invariant out == Walk(buf, fields[..k], indent, pal)
      decreases |fields| - k
    {
      var f := table[k];
      assert f == fields[k];
      RecordNesting(fields, k);
      var lines := DumpField(buf, f, indent, pal);
      WalkStep(buf, fields, k, indent, pal);
      out := out + lines;
      k := k + 1;
    }
    assert fields[..k] == fields;
  }

  /** One pass of the walk's loop: decode, print the header, and then either
      recurse into the directory record table or hex-dump the field. */
  method DumpField(buf: seq<byte>, f: Field, indent: nat, pal: Palette) returns (lines: seq<string>)
    requires f.offset + f.length <= |buf| && Width(f.format) <= f.length
    ensures lines == FieldOutput(buf, f, indent, pal)
    decreases if f.format == F910 then 1 else 0, 0
  {
    var data := buf[f.offset..];
    var value := DecodeField(data, f.format);
    lines := [Header(f, value, indent, pal)];
    if f.format == F910 {
      DirectoryFits(data);
      DirectoryLayout();
      var nested := DumpFieldList(data, DirectoryTable, indent + 2, pal);
      lines := lines + nested;
    } else {
      var dump := PrintHex(data, f.length, indent);
      lines := lines + dump;
    }
  }

  /** The bytes of `buf` that field `f` covers. */
  function Span(buf: seq<byte>, f: Field): seq<byte>
    requires f.offset + f.length <= |buf|
  {
    buf[f.offset..f.offset + f.length]
  }

  /** A field's lines are printed from its own bytes only: two buffers that agree
      on them print the same lines for it. */
  lemma {:induction false} FieldLocal(b1: seq<byte>, b2: seq<byte>, f: Field, indent: nat, pal: Palette)
    requires f.offset + f.length <= |b1| && f.offset + f.length <= |b2| && Width(f.format) <= f.length
    requires Span(b1, f) == Span(b2, f)
    ensures FieldOutput(b1, f, indent, pal) == FieldOutput(b2, f, indent, pal)
    decreases if f.format == F910 then 1 else 0, 1
  {
    var o1, o2 := FieldOutput(b1, f, indent, pal), FieldOutput(b2, f, indent, pal);
    if f.format == F910 {
      RecordExpansion(b1, f, indent, pal);
      RecordExpansion(b2, f, indent, pal);
      SliceOfPrefix(b1, f.offset + f.length, f.offset, f.offset + RecordSize);
      SliceOfPrefix(b2, f.offset + f.length, f.offset, f.offset + RecordSize);
      assert b1[f.offset..f.offset + RecordSize] == Span(b1, f)[..RecordSize];
      assert b2[f.offset..f.offset + RecordSize] == Span(b2, f)[..RecordSize];
    } else {
      HexField(b1, f, indent, pal);
      HexField(b2, f, indent, pal);
    }
    SplitHead(o1);
    SplitHead(o2);
  }

  /** A walk reads only the bytes its fields cover. */
  lemma {:induction false} WalkLocal(b1: seq<byte>, b2: seq<byte>, fields: seq<Field>, indent: nat, pal: Palette)
    requires Fits(b1, fields) && Fits(b2, fields)
    requires forall k :: 0 <= k < |fields| ==> Span(b1, fields[k]) == Span(b2, fields[k])
    ensures Walk(b1, fields, indent, pal) == Walk(b2, fields, indent, pal)
    decreases Nesting(fields), 2
  {
    var x1, x2 := Blocks(b1, fields, indent, pal), Blocks(b2, fields, indent, pal);
    forall k | 0 <= k < |fields|
      ensures x1[k] == x2[k]
    {
      RecordNesting(fields, k);
      FieldLocal(b1, b2, fields[k], indent, pal);
    }
    assert x1 == x2;
  }

  /** A field that is not a record prints its header, with the value decoded
      from its own bytes, and then the hex dump of exactly its `length` bytes. */
  lemma HexField(buf: seq<byte>, f: Field, indent: nat, pal: Palette)
    requires f.offset + f.length <= |buf| && Width(f.format) <= f.length
    requires f.format != F910
    ensures var out := FieldOutput(buf, f, indent, pal);
      && |out| >= 1
      && out[0] == Header(f, DecodeField(Span(buf, f), f.format), indent, pal)
      && out[1..] == HexLines(Span(buf, f), indent)
  {
    var data := buf[f.offset..];
    var span := Span(buf, f);
    SliceOfSuffix(buf, f.offset, f.length, Width(f.format));
    SliceOfSuffix(buf, f.offset, f.length, f.length);
    assert data[..f.length] == span;
    assert span[..Width(f.format)] == data[..Width(f.format)];
    DecodeLocal(data, span, f.format);
    var header := Header(f, DecodeField(data, f.format), indent, pal);
    assert FieldOutput(buf, f, indent, pal) == [header] + HexLines(span, indent);
    ConsParts(header, HexLines(span, indent));
  }

  /** A record field prints its header, with no value, and then the walk of the
      directory record table over the record's own bytes, two columns further
      in: the bytes after the record's first `RecordSize` change nothing. */
  lemma RecordExpansion(buf: seq<byte>, f: Field, indent: nat, pal: Palette)
    requires f.offset + f.length <= |buf| && Width(f.format) <= f.length
    requires f.format == F910
    ensures f.offset + RecordSize <= |buf|
    ensures Fits(buf[f.offset..f.offset + RecordSize], DirectoryFields)
    ensures var out := FieldOutput(buf, f, indent, pal);
      && |out| >= 1
      && out[0] == Header(f, None, indent, pal)
      && out[1..] == Walk(buf[f.offset..f.offset + RecordSize], DirectoryFields, indent + 2, pal)
    decreases 1, 0
  {
    var data := buf[f.offset..];
    var record := buf[f.offset..f.offset + RecordSize];
    DirectoryFits(data);
    DirectoryFits(record);
    SliceOfSuffix(buf, f.offset, RecordSize, RecordSize);
    forall k | 0 <= k < |DirectoryFields|
      ensures Span(data, DirectoryFields[k]) == Span(record, DirectoryFields[k])
    {
      var g := DirectoryFields[k];
      SliceOfPrefix(data, RecordSize, g.offset, g.offset + g.length);
    }
    WalkLocal(data, record, DirectoryFields, indent + 2, pal);
    ConsParts(Header(f, None, indent, pal), Walk(data, DirectoryFields, indent + 2, pal));
  }

  /** The recursion stops after one level: inside an expanded record every
      entry of the directory table prints its header and then the hex dump of
      its own bytes, and none is expanded again. */
  lemma RecordDepthOne(data: seq<byte>, k: nat, indent: nat, pal: Palette)
    requires |data| >= RecordSize && k < |DirectoryFields|
    ensures var f := DirectoryFields[k];
      && f.format != F910
      && f.offset + f.length <= |data| && Width(f.format) <= f.length
      && |FieldOutput(data, f, indent, pal)| >= 1
      && FieldOutput(data, f, indent, pal)[1..] == HexLines(Span(data, f), indent)
  {
    DirectoryFits(data);
    DirectoryLayout();
    var f := DirectoryFields[k];
    assert f.format != F910;
    HexField(data, f, indent, pal);
  }
}

=== FILE: wrappers.dfy ===
/** Optional values and results with an error, for the decoder's "no parsed value"
    and the entry point's fatal errors. */
module Wrappers {

  datatype Option<+T> = None | Some(value: T)

  datatype Result<+R, +E> = Success(value: R) | Failure(error: E)
}
